=== FILE: README.md ===
# AGC2 wrapper: a Dafny model

This project models `libmy/main.cc`. That file is a thin C++ layer around
WebRTC's second-generation automatic gain controller (AGC2). It has three parts:

- **Gain contexts.** There are two: the `Agc2Context` struct, created by
  `agc2_init`, and the `AGC2Context` class. Each one:
  - derives a 10 ms chunk geometry from the sample rate and channel count;
  - configures a `GainController2` engine;
  - pushes every chunk through the same sequence of calls: copy in, optional
    band split, engine, optional band merge, copy out.
- **The in-place interleaved processor `agc2_process_interleaved`.** It walks
  an interleaved buffer one chunk at a time. It deinterleaves each chunk with
  hand-written copy loops and writes the result back to the same positions.
- **Four streaming drivers.** These are `my_agc2`, `my2_agc2`, `my3_agc2` and
  the reference example `agc2`. Each one reads a chunk, processes it and writes
  it out, until a short read (and, for three of them, a turn cap) ends the loop.

The model is generic in the sample type `T`.

**The engine.** The model does not implement the engine. Each context keeps a
log of every call made to the engine and to its audio buffer. The engine is
any function from (that log, the planar chunk) to a planar chunk of the same
shape. A deterministic stateful object can depend on nothing more. Every
property below holds for every such engine. Where a property needs the
samples to pass through unchanged, it is stated for the identity engine.

**Modules:**

- `Chunking`: frames per chunk, the geometry and its offsets, how many chunks
  the in-place loop visits.
- `Layout`: the interleaved and planar layouts, the two round trips, and the
  two copy loops as methods.
- `Mirror`: the debug WAV mirrors and their toggle.
- `Pipeline`: contexts, construction, reconfiguration, the per-chunk call
  order (a small state machine over the log), and the lifetime of a context
  under any sequence of host calls.
- `ChunkLoop`: the in-place interleaved processor.
- `Driver`: the streaming drivers.

**Behaviour of the code worth knowing.** The model follows the code:

- Construction calls the engine's `ApplyConfig` before `Validate`.
- Runtime reconfiguration (`Apply`) never validates.
- Nothing checks the length of a chunk against its geometry, and there is no
  lifecycle state. The chunk length is therefore a precondition here, not an
  error result.
- The band split flag is not derived from the rate by default:
  - the class takes it as an argument that defaults to off;
  - `agc2_init` forces it off;
  - only the reference example `agc2` splits above 16 kHz.
- At the end of the stream the drivers do not pad the final short chunk.
  - The three in-place drivers read over the front of the chunk buffer. The
    rest still holds the previous processed chunk, and the whole buffer is
    processed and written (`Driver.LoopLastTurn`, `Driver.CappedLastTurn`).
  - The reference example reads through a channel-buffer reader into a
    separate input buffer. That reader is taken to fill the buffer only on a
    whole-chunk read. On a short read the buffer keeps the previous input
    chunk, so that chunk is processed and written once more and the partial
    samples are dropped (`Driver.ExampleDropsPartialChunk`).

## Model

| member | source | states |
|---|---|---|
| Chunking.FramesPerChunk | libmy/main.cc:112-114 | a chunk holds the sample rate divided by 100, rounded down: frames*100 <= rate < (frames+1)*100 |
| Chunking.ChunkGeometry | libmy/main.cc:112-128 | a context's buffers have the stream's channel count and rate/100 frames, so an interleaved chunk has frames*channels samples |
| Chunking.OffsetInChunk | libmy/main.cc:362-368 | every index f*channels+ch the copy loops use lies inside the chunk, and a whole frame fits after f*channels |
| Chunking.OffsetInjective | libmy/main.cc:397-403 | distinct (frame, channel) pairs go to distinct positions, so no write of the copy-back loop overwrites another |
| Chunking.OffsetCovers | libmy/main.cc:397-403 | every position of the chunk is the offset of one (frame, channel) pair, so the copy-back loop writes the whole chunk |
| Chunking.ChunkCount | libmy/main.cc:359 | the number of chunks the loop visits is the least k with k*size >= num_samples |
| Chunking.WindowsPartition | libmy/main.cc:359 | the visited windows [c*size, (c+1)*size) are disjoint and cover the processed range; each sample index lies in exactly one of them |
| Layout.Filled | libmy/main.cc:353-357 | the scratch buffer has one row per channel of frames_per_chunk entries, each holding the resize fill value |
| Layout.InterleaveIndex | libmy/main.cc:397-403 | the interleaved layout (the concatenation of frames) holds channel ch of frame f at position f*channels+ch |
| Layout.InterleaveOfDeinterleave | libmy/main.cc:362-403 | deinterleaving a chunk and interleaving it back gives exactly the samples of that window |
| Layout.DeinterleaveOfInterleave | libmy/main.cc:362-403 | interleaving a planar chunk and deinterleaving it back gives the planar chunk |
| Layout.DeinterleaveLoop | libmy/main.cc:362-368 | the frame-major, channel-minor copy loop fills the scratch buffer with the deinterleaved window, overwriting all of it |
| Layout.InterleaveLoop | libmy/main.cc:397-403 | the copy-back loop puts the interleaved chunk at the window and leaves every sample before and after it untouched |
| Mirror.NoMirrors | libmy/main.cc:83-84 | a new context has both debug mirrors closed |
| Mirror.Toggle | libmy/main.cc:244-257 | toggling closes an open mirror, or opens a closed one as a new empty file |
| Mirror.Debug | libmy/main.cc:217-224 | identifier 1 flips both mirrors between open and closed, and newly opened mirrors are empty; any other identifier changes nothing |
| Mirror.Append | libmy/main.cc:148-151 | an open mirror receives the written samples at its end; a closed one stays closed |
| Mirror.DebugTimesParity | libmy/main.cc:217-224 | after n debug toggles a mirror is open exactly when its initial state and the parity of n say so |
| Mirror.DebugTwice | libmy/main.cc:244-257 | two toggles restore which mirrors are open; from closed mirrors they restore them exactly; an open mirror comes back empty |
| Pipeline.ChunkEventsWellOrdered | libmy/main.cc:187-210 | one chunk's calls are complete and in order, call the engine exactly once, and use the filter bank exactly when the split flag is set |
| Pipeline.MakeContext | libmy/main.cc:107-128 | construction logs Initialize, then ApplyConfig, then Validate; it leaves the log well ordered with no engine call, the configuration in force, and the mirrors closed |
| Pipeline.NewContext | libmy/main.cc:89-129 | the class constructor takes the split flag from its argument, sizes the chunk from the rate, and puts the given gain, adaptive flag and attack probability in force |
| Pipeline.DefaultContext | libmy/main.cc:89-93 | with defaulted arguments the class is set to 3 dB, adaptive on, attack probability 1, no split |
| Pipeline.InitContext | libmy/main.cc:266-307 | the plain initialiser forces the split off and leaves the attack probability at the library default |
| Pipeline.ExampleContext | libmy/main.cc:660-675 | the reference example is set to 10 dB with adaptive on, and splits exactly when the rate is above 16 kHz |
| Pipeline.GetChunkSize | libmy/main.cc:87 | the reported chunk size counts frames, times the channel count gives the samples a caller must hand to Run, and for a context whose geometry was derived from its rate it is the rate divided by 100, rounded down |
| Pipeline.ChunkSizeOverLifetime | libmy/main.cc:87-114 | after construction and any sequence of host calls, the reported chunk size is still the rate divided by 100, rounded down, and times the channel count still gives the chunk length |
| Pipeline.Apply | libmy/main.cc:131-143 | reconfiguration appends exactly one ApplyConfig call carrying the new gain, adaptive flag and attack probability, never validates, and changes neither the setup nor the mirrors |
| Pipeline.Notify | libmy/main.cc:212-215 | an analog-level hint appends exactly one NotifyAnalogLevel call carrying that level and leaves the configuration in force unchanged |
| Pipeline.ProcessPlanar | libmy/main.cc:187-210 | one planar chunk adds exactly that chunk's call sequence to the log and comes back with the same shape, holding the engine's answer to the chunk given the earlier log plus the chunk's copy-in and split calls |
| Pipeline.EngineSeesLogBefore | libmy/main.cc:187-210 | the log the engine answers to is exactly the context's log after the chunk, cut just before the chunk's Process call |
| Pipeline.Run | libmy/main.cc:146-162 | Run mirrors the chunk as it arrives to the open input mirror, keeps the chunk's length, hands the engine the deinterleaved chunk, and returns samples that deinterleave to the engine's answer |
| Pipeline.RunWritesEngineResult | libmy/main.cc:156-161 | Run writes channel ch of frame f of the engine's answer at position f*channels+ch of the chunk |
| Pipeline.RunIdentity | libmy/main.cc:146-162 | with an engine that changes nothing, a chunk comes out of Run exactly as it went in |
| Pipeline.RunIgnoresMirrors | libmy/main.cc:146-162 | the debug mirrors never change the samples Run returns or the calls it makes |
| Pipeline.WriteOutSamples | libmy/main.cc:226-231 | writing out appends to the output mirror only when it is open, and touches nothing else |
| Pipeline.DebugContext | libmy/main.cc:217-224 | the debug hook changes only the mirrors, and for identifiers other than 1 changes nothing |
| Pipeline.Perform | libmy/main.cc:131-231 | no host call changes the rate, geometry or split flag fixed at construction |
| Pipeline.PerformInvariant | libmy/main.cc:131-231 | every host call keeps the log well ordered, adds one engine call exactly when it runs a chunk, and uses the filter bank only for a chunk of a split context |
| Pipeline.ReplayInvariant | libmy/main.cc:89-231 | over any sequence of host calls: the setup never changes, the log stays well ordered, the engine runs once per chunk, and the filter bank is used exactly when the flag is set and a chunk ran |
| Pipeline.SplitDecidedAtConstruction | libmy/main.cc:93-95 | over any lifetime, the filter bank is used exactly when the constructor set the flag and a chunk ran: the class's subband argument, never under agc2_init, above 16 kHz in the reference example |
| ChunkLoop.Chunks | libmy/main.cc:359-404 | after k chunks the buffer keeps its length and every sample past the k-th window is untouched |
| ChunkLoop.ChunkReadsOriginal | libmy/main.cc:359-368 | chunk c reads its window's original samples; earlier chunks wrote back only before it |
| ChunkLoop.ChunksLog | libmy/main.cc:359-404 | the engine sees chunk 0, then chunk 1, and so on, each taken from the original samples and each with its full call sequence |
| ChunkLoop.ChunksWindow | libmy/main.cc:359-404 | after k chunks, window c < k holds the engine's answer to that window's original samples, the engine having seen the calls of chunks 0 to c-1 and chunk c's calls before Process; no later chunk writes over it |
| ChunkLoop.ChunksIdentity | libmy/main.cc:359-404 | with an engine that changes nothing, processing any number of chunks leaves the buffer exactly as it was |
| ChunkLoop.SingleChunkIsRun | libmy/main.cc:345-405 | for one chunk, the in-place processor gives the same context and samples as Run on a context whose input mirror is closed |
| ChunkLoop.ProcessWindow | libmy/main.cc:361-403 | one turn of the loop, built from the two copy loops, is one step of the chunk-wise reference |
| ChunkLoop.ProcessInterleaved | libmy/main.cc:345-405 | the in-place processor's loop computes the chunk-wise reference over exactly the chunks whose start is below num_samples |
| ChunkLoop.ProcessInterleavedIdentity | libmy/main.cc:345-405 | with an engine that changes nothing, the in-place processor returns the buffer unchanged |
| Driver.Read | libmy/main.cc:439-440 | a read reports as many samples as remain, at most a chunk; a whole-chunk read fills the buffer with the next chunk; a short in-place read overwrites only the front of the buffer, and a short read of the reference example leaves its input buffer as it was |
| Driver.WholeChunks | libmy/main.cc:679-681 | the whole chunks of an input are at most the input, leave less than a chunk over, and are either none or at least one chunk |
| Driver.WholeChunksMod | libmy/main.cc:679-681 | the whole chunks of an input are its length less the remainder modulo the chunk size |
| Driver.Loop | libmy/main.cc:437-450 | the loop runs at least one turn, writes a whole chunk per turn, and never changes the context's setup |
| Driver.LoopChunks | libmy/main.cc:437-450 | the loop makes one turn per full chunk of input plus the turn of the first short read, unless the cap ends it first |
| Driver.CappedChunks | libmy/main.cc:609-634 | a capped loop makes min(len/size + 1, cap + 1) turns and never more than cap + 1 |
| Driver.LoopKeepsInput | libmy/main.cc:437-450 | the loop loses, reorders and alters none of the input it delivers: with an engine that changes nothing, the output begins with the delivered input as far as it reaches, where the in-place drivers deliver all of the input and the reference example its whole chunks |
| Driver.LoopRepeatsLastChunk | libmy/main.cc:437-450 | for the uncapped loop: the output is the input's whole chunks plus one chunk; with an engine that changes nothing, that extra chunk is, for the in-place buffer, the final partial input followed by the stale end of the last whole chunk (or of the initial buffer), and for the channel buffers the last whole chunk once more, so a final partial chunk is dropped |
| Driver.LoopLastTurn | libmy/main.cc:437-450 | for any engine, the uncapped loop writes the input's whole chunks plus one chunk, and that chunk is what the chunk path makes of the final short read landing in the carried buffer: for the in-place buffer the last chunk written (the processed one), for the channel buffers the last whole input chunk |
| Driver.CapUnreached | libmy/main.cc:609-634 | a capped loop whose remaining whole chunks do not reach its cap is exactly the uncapped loop: same context, output and turn count |
| Driver.LoopProcessCount | libmy/main.cc:437-450 | the loop keeps the log well ordered and calls the engine exactly once per chunk written |
| Driver.LoopIgnoresMirrors | libmy/main.cc:557-575 | open debug mirrors never change what the loop writes, how many chunks it makes, or what the engine is handed |
| Driver.LoopMirrorsOpen | libmy/main.cc:557-575 | running chunks neither opens nor closes a mirror, and the output mirror is not written to |
| Driver.ChunkBuffer | libmy/main.cc:432-433 | the chunk buffer has frames*channels samples, all initially the resize fill value |
| Driver.MyAgc2 | libmy/main.cc:419-451 | the uncapped driver over agc2_init makes len/size + 1 turns and writes that many whole chunks |
| Driver.My2Agc2 | libmy/main.cc:581-635 | the driver over agc2_init stops after at most 10001 turns, each writing one whole chunk |
| Driver.My3Agc2 | libmy/main.cc:534-577 | the driver over the defaulted class never splits, makes at most 10001 turns, and ends with both mirrors closed again |
| Driver.CappedLastTurn | libmy/main.cc:609-634 | for a capped driver whose input has at most `limit` whole chunks and any engine, the output is the whole chunks plus one chunk, the chunk path's work on the final short read landing in the carried buffer; this covers my2_agc2, my3_agc2 and the reference example |
| Driver.ExampleDropsPartialChunk | libmy/main.cc:679-698 | below its 30000-chunk cap, with an engine that changes nothing, the reference example writes its whole chunks and then the last whole chunk again (the initial silence if there was none), dropping the final partial chunk |
| Driver.My3MirrorsChangeNothing | libmy/main.cc:534-577 | the debug toggles around the third driver's loop change neither its samples, its turn count nor the engine's calls |
| Driver.Agc2Example | libmy/main.cc:641-700 | the reference example splits exactly above 16 kHz, stops after at most 30001 turns, and writes one whole chunk per turn |

## Left out

- Sample scaling (`FloatS16ToFloat`, `FloatToFloatS16`): these are floating-point arithmetic. Samples are an abstract type, and the scaling is part of what the engine does to a chunk.
- The engine's gain computation, the `AudioBuffer` filter bank, and `CopyFrom`/`CopyTo`: these are library code. They appear as logged calls and as the engine function.
- The library's `Interleave`/`Deinterleave`, used by `Run`, `RunFloat` and `run`: they are modelled with the same frame-major layout as the hand-written copy loops in `agc2_process_interleaved`.
- `RunFloat` and the struct's `run`: `RunFloat` differs from `Run` in skipping the scaling and in writing its input mirror with `WriteMySamples` (main.cc:167) rather than `WriteSamples` (main.cc:150); `run` differs only in having no mirror. The mirror's sample format is not modelled, so both mirror writes append the chunk. Both are modelled by `Pipeline.Run`, `run` on a context whose mirrors are closed. `agc2_process2` is the same call sequence as `Pipeline.ProcessPlanar`.
- WAV file I/O (`WavReader`, `WavWriter`, the file names and sample formats): the input stream is a sequence of samples, and the output is the sequence of samples written.
- `ChannelBufferWavReader` and `ChannelBufferWavWriter`: these are not part of this model. The reference example's reader is taken to fill its input buffer only on a whole-chunk read and to leave the buffer unchanged on a short read (`Driver.Buffers`, `ChannelBuffers`).
- `RTC_CHECK_EQ` on `Validate`: the engine's validation result is not modelled. The call is logged, and an aborted construction is not represented.
- `AGC2_process` byte arithmetic (`bytes / sizeof(float)`) and `memcpy`; handle creation and destruction (`AGC2_init`, `AGC2_destroy`, `agc2_destroy`, `AGC2_GetChunkSize`, the other `extern "C"` wrappers); `printf`; `test_main`; the test program that loads the library dynamically. These are memory-handling and I/O plumbing around the modelled operations.
- Negative sample rates and channel counts: both are natural numbers here. C++ `int` division and `int` overflow of the loop index are not modelled.
- ChunkLoop.ProcessInterleaved: requires every visited window to lie inside the buffer. The source reads and writes past index `num_samples` of `pcm_buffer` when `num_samples` is not a multiple of the chunk size. It also never advances when a chunk has zero samples and `num_samples` is positive, so that case is excluded too.
- Driver.MyAgc2: requires a non-empty chunk. With an empty chunk every read is "full", and the uncapped source loop never ends.

=== FILE: chunk_loop.dfy ===
/** The in-place interleaved processor: walks an interleaved buffer one chunk
    at a time, deinterleaves the chunk into a scratch planar buffer, passes
    it through the chunk path, and writes the result back to the same
    positions. */
module ChunkLoop {
  import opened Chunking
  import opened Layout
  import opened Pipeline

  /** Chunk-wise reference: the buffer after the first k chunks have been
      processed one after another, and the context after them. */
  function Chunks<T(!new)>(ctx: Context<T>, engine: Engine<T>, pcm: seq<T>, k: nat): (r: (Context<T>, seq<T>))
    requires ShapePreserving(engine, ctx.geometry)
    requires k * ctx.geometry.Size() <= |pcm|
    ensures SameSetup(r.0, ctx) && r.0.mirrors == ctx.mirrors
    ensures |r.1| == |pcm|
    ensures r.1[k * ctx.geometry.Size() ..] == pcm[k * ctx.geometry.Size() ..]
    decreases k
  {
    if k == 0 then (ctx, pcm)
    else
      var g := ctx.geometry;
      var at := (k - 1) * g.Size();
      var prev := Chunks(ctx, engine, pcm, k - 1);
      var step := ProcessPlanar(prev.0, engine, Deinterleave(g, prev.1, at));
      var out := prev.1[..at] + Interleave(g, step.1) + prev.1[at + g.Size()..];
      assert out[k * g.Size() ..] == prev.1[at + g.Size() ..];
      (step.0, out)
  }

  /** Chunk c sees only its own input samples: what the earlier chunks wrote
      back lies before it, so it reads the original buffer. */
  lemma ChunkReadsOriginal<T(!new)>(ctx: Context<T>, engine: Engine<T>, pcm: seq<T>, c: nat)
    requires ShapePreserving(engine, ctx.geometry)
    requires (c + 1) * ctx.geometry.Size() <= |pcm|
    ensures c * ctx.geometry.Size() + ctx.geometry.Size() <= |pcm|
    ensures Deinterleave(ctx.geometry, Chunks(ctx, engine, pcm, c).1, c * ctx.geometry.Size())
         == Deinterleave(ctx.geometry, pcm, c * ctx.geometry.Size())
  {
    var g := ctx.geometry;
    var b := Chunks(ctx, engine, pcm, c).1;
    assert (c + 1) * g.Size() == c * g.Size() + g.Size();
    var at := c * g.Size();
    assert b[at..] == pcm[at..];
    var db := Deinterleave(g, b, at);
    var dp := Deinterleave(g, pcm, at);
    forall ch | 0 <= ch < g.channels
      ensures db[ch] == dp[ch]
    {
      forall f | 0 <= f < g.frames
        ensures db[ch][f] == dp[ch][f]
      {
        OffsetInChunk(g, f, ch);
        assert b[at + g.Offset(f, ch)] == b[at..][g.Offset(f, ch)];
        assert pcm[at + g.Offset(f, ch)] == pcm[at..][g.Offset(f, ch)];
      }
    }
  }

  /** The engine's log over k chunks: the chunks' calls in order, chunk c
      handing the engine exactly the original samples of window c. */
  function ChunkLog<T>(split: bool, g: Geometry, pcm: seq<T>, k: nat): seq<Event<T>>
    requires k * g.Size() <= |pcm|
    decreases k
  {
    if k == 0 then []
    else
      MulMonotone(k - 1, k, g.Size());
      ChunkLog(split, g, pcm, k - 1) + ChunkEvents(split, Deinterleave(g, pcm, (k - 1) * g.Size()))
  }

  /** Every window is read once, in order: the engine is handed chunk 0,
      then chunk 1, and so on, each taken from the original samples. */
  lemma {:induction false} ChunksLog<T(!new)>(ctx: Context<T>, engine: Engine<T>, pcm: seq<T>, k: nat)
    requires ShapePreserving(engine, ctx.geometry)
    requires k * ctx.geometry.Size() <= |pcm|
    ensures Chunks(ctx, engine, pcm, k).0.log == ctx.log + ChunkLog(ctx.splitBands, ctx.geometry, pcm, k)
    decreases k
  {
    if k > 0 {
      var g := ctx.geometry;
      MulMonotone(k - 1, k, g.Size());
      ChunksLog(ctx, engine, pcm, k - 1);
      ChunkReadsOriginal(ctx, engine, pcm, k - 1);
      ChunksStep(ctx, engine, pcm, k);
    }
  }

  /** Chunk k - 1 reads window k - 1 of the buffer the earlier chunks left
      and writes the engine's result back over it. */
  lemma ChunksStep<T(!new)>(ctx: Context<T>, engine: Engine<T>, pcm: seq<T>, k: nat)
    requires ShapePreserving(engine, ctx.geometry)
    requires 0 < k && k * ctx.geometry.Size() <= |pcm|
    ensures (k - 1) * ctx.geometry.Size() + ctx.geometry.Size() <= |pcm|
    ensures var at := (k - 1) * ctx.geometry.Size();
            var prev := Chunks(ctx, engine, pcm, k - 1);
            var step := ProcessPlanar(prev.0, engine, Deinterleave(ctx.geometry, prev.1, at));
            Chunks(ctx, engine, pcm, k) == (step.0, prev.1[..at] + Interleave(ctx.geometry, step.1) + prev.1[at + ctx.geometry.Size()..])
  {
    MulMonotone(k - 1, k, ctx.geometry.Size());
  }

  /** What the processed windows hold: after k chunks, window c < k holds
      the engine's answer to the original samples of that window, the engine
      having seen the calls of chunks 0 to c - 1 and chunk c's calls up to
      Process; no later chunk writes over it. */
  lemma {:induction false} ChunksWindow<T(!new)>(ctx: Context<T>, engine: Engine<T>, pcm: seq<T>, k: nat, c: nat)
    requires ShapePreserving(engine, ctx.geometry)
    requires k * ctx.geometry.Size() <= |pcm| && c < k
    ensures c * ctx.geometry.Size() + ctx.geometry.Size() <= |pcm|
    ensures var g := ctx.geometry;
            var w := Deinterleave(g, pcm, c * g.Size());
            Deinterleave(g, Chunks(ctx, engine, pcm, k).1, c * g.Size())
              == engine(ctx.log + ChunkLog(ctx.splitBands, g, pcm, c) + BeforeProcess(ctx.splitBands, w), w)
    decreases k
  {
    if c == k - 1 {
      WindowWritten(ctx, engine, pcm, c);
    } else {
      ChunksWindow(ctx, engine, pcm, k - 1, c);
      WindowKept(ctx, engine, pcm, k, c);
    }
  }

  /** Chunk c writes the engine's answer for window c over that window. */
  lemma WindowWritten<T(!new)>(ctx: Context<T>, engine: Engine<T>, pcm: seq<T>, c: nat)
    requires ShapePreserving(engine, ctx.geometry)
    requires (c + 1) * ctx.geometry.Size() <= |pcm|
    ensures c * ctx.geometry.Size() + ctx.geometry.Size() <= |pcm|
    ensures var g := ctx.geometry;
            var w := Deinterleave(g, pcm, c * g.Size());
            Deinterleave(g, Chunks(ctx, engine, pcm, c + 1).1, c * g.Size())
              == engine(ctx.log + ChunkLog(ctx.splitBands, g, pcm, c) + BeforeProcess(ctx.splitBands, w), w)
  {
    var g := ctx.geometry;
    WindowBefore(c, c + 1, g.Size());
    var at: nat := c * g.Size();
    ChunksStep(ctx, engine, pcm, c + 1);
    WindowAnswer(ctx, engine, pcm, c, at);
    var prev := Chunks(ctx, engine, pcm, c);
    DeinterleaveOfSplice(g, prev.1, ProcessPlanar(prev.0, engine, Deinterleave(g, prev.1, at)).1, at);
  }

  /** The engine's answer chunk c computes is its answer to the original
      samples of window c, after the calls of the chunks before it. */
  lemma WindowAnswer<T(!new)>(ctx: Context<T>, engine: Engine<T>, pcm: seq<T>, c: nat, at: nat)
    requires ShapePreserving(engine, ctx.geometry)
    requires (c + 1) * ctx.geometry.Size() <= |pcm|
    requires at == c * ctx.geometry.Size() && at + ctx.geometry.Size() <= |pcm|
    ensures var g := ctx.geometry;
            var w := Deinterleave(g, pcm, at);
            var prev := Chunks(ctx, engine, pcm, c);
            ProcessPlanar(prev.0, engine, Deinterleave(g, prev.1, at)).1
              == engine(ctx.log + ChunkLog(ctx.splitBands, g, pcm, c) + BeforeProcess(ctx.splitBands, w), w)
  {
    ChunksLog(ctx, engine, pcm, c);
    ChunkReadsOriginal(ctx, engine, pcm, c);
    StepReadsWindow(ctx, engine, pcm, c, at, Chunks(ctx, engine, pcm, c));
  }

  /** A chunk step taken from a context whose log holds the first c chunks'
      calls, over a buffer whose window c still holds the original samples,
      returns the engine's answer to those samples. */
  lemma StepReadsWindow<T(!new)>(ctx: Context<T>, engine: Engine<T>, pcm: seq<T>, c: nat, at: nat, prev: (Context<T>, seq<T>))
    requires ShapePreserving(engine, ctx.geometry)
    requires c * ctx.geometry.Size() <= |pcm| && at == c * ctx.geometry.Size()
    requires at + ctx.geometry.Size() <= |pcm| && |prev.1| == |pcm|
    requires SameSetup(prev.0, ctx) && prev.0.log == ctx.log + ChunkLog(ctx.splitBands, ctx.geometry, pcm, c)
    requires Deinterleave(ctx.geometry, prev.1, at) == Deinterleave(ctx.geometry, pcm, at)
    ensures var w := Deinterleave(ctx.geometry, pcm, at);
            ProcessPlanar(prev.0, engine, Deinterleave(ctx.geometry, prev.1, at)).1
              == engine(ctx.log + ChunkLog(ctx.splitBands, ctx.geometry, pcm, c) + BeforeProcess(ctx.splitBands, w), w)
  {
  }

  /** A later chunk writes only its own window, so window c keeps what it held. */
  lemma WindowKept<T(!new)>(ctx: Context<T>, engine: Engine<T>, pcm: seq<T>, k: nat, c: nat)
    requires ShapePreserving(engine, ctx.geometry)
    requires k * ctx.geometry.Size() <= |pcm| && c + 1 < k
    ensures c * ctx.geometry.Size() + ctx.geometry.Size() <= (k - 1) * ctx.geometry.Size()
    ensures Deinterleave(ctx.geometry, Chunks(ctx, engine, pcm, k).1, c * ctx.geometry.Size())
         == Deinterleave(ctx.geometry, Chunks(ctx, engine, pcm, k - 1).1, c * ctx.geometry.Size())
  {
    var g := ctx.geometry;
    WindowBefore(c, k - 1, g.Size());
    ChunksStep(ctx, engine, pcm, k);
    var prev := Chunks(ctx, engine, pcm, k - 1);
    var step := ProcessPlanar(prev.0, engine, Deinterleave(g, prev.1, (k - 1) * g.Size()));
    DeinterleaveBeforeSplice(g, prev.1, Interleave(g, step.1), (k - 1) * g.Size(), c * g.Size());
  }

  /** Cutting a sequence around a window and joining the pieces gives it back. */
  lemma Splice<T>(s: seq<T>, at: nat, n: nat)
    requires at + n <= |s|
    ensures s[..at] + s[at .. at + n] + s[at + n ..] == s
  {
  }

  /** With an engine that changes nothing, processing any number of chunks
      leaves the buffer exactly as it was. */
  lemma {:induction false} ChunksIdentity<T(!new)>(ctx: Context<T>, pcm: seq<T>, k: nat)
    requires k * ctx.geometry.Size() <= |pcm|
    ensures Chunks(ctx, Identity(), pcm, k).1 == pcm
    decreases k
  {
    if k > 0 {
      var g := ctx.geometry;
      MulMonotone(k - 1, k, g.Size());
      ChunksIdentity(ctx, pcm, k - 1);
      var at := (k - 1) * g.Size();
      ChunksStep(ctx, Identity(), pcm, k);
      InterleaveOfDeinterleave(g, pcm, at);
      Splice(pcm, at, g.Size());
    }
  }

  /** One chunk through the in-place processor is one chunk through Run on a
      context whose input mirror is closed. */
  lemma SingleChunkIsRun<T(!new)>(ctx: Context<T>, engine: Engine<T>, chunk: seq<T>)
    requires ShapePreserving(engine, ctx.geometry)
    requires |chunk| == ctx.geometry.Size()
    requires ctx.mirrors.input.Closed?
    ensures Chunks(ctx, engine, chunk, 1) == Run(ctx, engine, chunk)
  {
    var g := ctx.geometry;
    var zero := Chunks(ctx, engine, chunk, 0);
    assert zero.1 == chunk;
    assert chunk[..0] == [] && chunk[g.Size()..] == [];
    var step := ProcessPlanar(ctx, engine, Deinterleave(g, chunk, 0));
    assert Chunks(ctx, engine, chunk, 1).1 == Interleave(g, step.1);
  }

  /** The loop index k*size is below `numSamples` exactly for the chunks the
      loop visits. */
  lemma ChunkIndexBounds(numSamples: nat, size: nat, k: nat)
    requires numSamples > 0 ==> size > 0
    ensures k * size < numSamples <==> k < ChunkCount(numSamples, size)
  {
    var count := ChunkCount(numSamples, size);
    if k < count {
      MulMonotone(k, count - 1, size);
    } else {
      MulMonotone(count, k, size);
    }
  }

  /** A visited window lies inside the buffer, and the next index is the
      start of the next window. */
  lemma NextWindow(numSamples: nat, size: nat, len: nat, k: nat)
    requires numSamples > 0 ==> size > 0
    requires ChunkCount(numSamples, size) * size <= len
    requires k * size < numSamples
    ensures k + 1 <= ChunkCount(numSamples, size)
    ensures (k + 1) * size <= len
    ensures k * size + size == (k + 1) * size
  {
    ChunkIndexBounds(numSamples, size, k);
    MulMonotone(k + 1, ChunkCount(numSamples, size), size);
  }

  /** One turn of the loop: deinterleave window k with the source's copy
      loop, run the chunk path, write the result back with the copy loop. */
  method ProcessWindow<T(!new)>(ghost ctx: Context<T>, engine: Engine<T>, ghost pcm: seq<T>, ghost k: nat, at: nat,
                                 cur: Context<T>, buf: seq<T>, scratch: Planar<T>)
    returns (next: Context<T>, newBuf: seq<T>, newScratch: Planar<T>)
    requires ShapePreserving(engine, ctx.geometry)
    requires (k + 1) * ctx.geometry.Size() <= |pcm|
    requires at == k * ctx.geometry.Size()
    requires Shaped(ctx.geometry, scratch)
    requires (cur, buf) == Chunks(ctx, engine, pcm, k)
    ensures Shaped(ctx.geometry, newScratch)
    ensures (next, newBuf) == Chunks(ctx, engine, pcm, k + 1)
  {
    var g := cur.geometry;
    MulMonotone(k, k + 1, g.Size());
    assert at + g.Size() == (k + 1) * g.Size();
    var planar := DeinterleaveLoop(g, buf, at, scratch);
    var step := ProcessPlanar(cur, engine, planar);
    newBuf := InterleaveLoop(g, buf, at, step.1);
    next := step.0;
    newScratch := step.1;
  }

  /** The in-place interleaved processor. The index advances by one chunk
      (frames times channels samples) while it is below `numSamples`; every
      visited chunk must lie inside the buffer, and a chunk of zero samples
      with samples pending would never advance. The scratch planar buffer
      starts filled with `silence`. */
  method ProcessInterleaved<T(!new)>(ctx: Context<T>, engine: Engine<T>, pcm: seq<T>, numSamples: nat, silence: T)
    returns (after: Context<T>, out: seq<T>)
    requires ShapePreserving(engine, ctx.geometry)
    requires numSamples > 0 ==> ctx.geometry.Size() > 0
    requires ChunkCount(numSamples, ctx.geometry.Size()) * ctx.geometry.Size() <= |pcm|
    ensures (after, out) == Chunks(ctx, engine, pcm, ChunkCount(numSamples, ctx.geometry.Size()))
  {
    var g := ctx.geometry;
    var size := g.Size();
    var count := ChunkCount(numSamples, size);
    var scratch := Filled(g, silence);
    after := ctx;
    out := pcm;
    var i := 0;
    ghost var k := 0;
    while i < numSamples
      invariant k <= count && i == k * size && k * size <= |pcm|
      invariant Shaped(g, scratch)
      invariant (after, out) == Chunks(ctx, engine, pcm, k)
      decreases numSamples - i
    {
      after, out, scratch, i, k := Turn(ctx, engine, pcm, numSamples, i, k, after, out, scratch);
    }
    ChunkIndexBounds(numSamples, size, k);
  }

  /** One pass of the loop body: process the window at index `i`, the k-th,
      and advance the index to the start of the next one. */
  method Turn<T(!new)>(ghost ctx: Context<T>, engine: Engine<T>, ghost pcm: seq<T>, numSamples: nat, i: nat, ghost k: nat,
                       cur: Context<T>, buf: seq<T>, scratch: Planar<T>)
    returns (next: Context<T>, newBuf: seq<T>, newScratch: Planar<T>, i': nat, ghost k': nat)
    requires ShapePreserving(engine, ctx.geometry)
    requires numSamples > 0 ==> ctx.geometry.Size() > 0
    requires ChunkCount(numSamples, ctx.geometry.Size()) * ctx.geometry.Size() <= |pcm|
    requires i == k * ctx.geometry.Size() && i < numSamples
    requires Shaped(ctx.geometry, scratch)
    requires (cur, buf) == Chunks(ctx, engine, pcm, k)
    ensures k' == k + 1 && k' <= ChunkCount(numSamples, ctx.geometry.Size())
    ensures i' == k' * ctx.geometry.Size() && i < i' && k' * ctx.geometry.Size() <= |pcm|
    ensures Shaped(ctx.geometry, newScratch)
    ensures (next, newBuf) == Chunks(ctx, engine, pcm, k')
  {
    var size := cur.geometry.Size();
    assert cur.geometry == ctx.geometry;
    NextWindow(numSamples, size, |pcm|, k);
    next, newBuf, newScratch := ProcessWindow(ctx, engine, pcm, k, i, cur, buf, scratch);
    i' := i + size;
    k' := k + 1;
  }

  /** The in-place processor leaves the buffer's length alone, never touches
      samples past the last visited chunk, and with an engine that changes
      nothing returns the buffer unchanged. */
  method ProcessInterleavedIdentity<T(!new)>(ctx: Context<T>, pcm: seq<T>, numSamples: nat, silence: T)
    returns (out: seq<T>)
    requires numSamples > 0 ==> ctx.geometry.Size() > 0
    requires ChunkCount(numSamples, ctx.geometry.Size()) * ctx.geometry.Size() <= |pcm|
    ensures out == pcm
  {
    var c;
    c, out := ProcessInterleaved(ctx, Identity(), pcm, numSamples, silence);
    ChunksIdentity(ctx, pcm, ChunkCount(numSamples, ctx.geometry.Size()));
  }
}

=== FILE: chunking.dfy ===
/** Chunk geometry: how many frames a 10 ms chunk holds, and where sample
    (frame f, channel ch) lives inside an interleaved chunk. */
module Chunking {

  /** Every chunk covers 10 ms of audio. */
  const ChunksPerSecond: nat := 100

  /** The rate above which the reference example splits into frequency bands. */
  const SampleRate16kHz: nat := 16000

  /** Frames per chunk, computed with integer division of the sample rate. */
  function FramesPerChunk(sampleRate: nat): (frames: nat)
    ensures frames * ChunksPerSecond <= sampleRate < (frames + 1) * ChunksPerSecond
  {
    sampleRate / ChunksPerSecond
  }

  /** The shape of one chunk: frames per channel and number of channels. */
  datatype Geometry = Geometry(frames: nat, channels: nat) {

    /** Number of samples of an interleaved chunk. */
    function Size(): nat {
      frames * channels
    }

    /** Frame-major, channel-minor position of (frame f, channel ch). */
    function Offset(f: nat, ch: nat): nat {
      f * channels + ch
    }
  }

  /** The geometry a context derives from the stream's rate and channel count. */
  function ChunkGeometry(sampleRate: nat, channels: nat): (g: Geometry)
    ensures g.channels == channels
    ensures g.frames * ChunksPerSecond <= sampleRate < (g.frames + 1) * ChunksPerSecond
    ensures g.Size() == FramesPerChunk(sampleRate) * channels
  {
    Geometry(FramesPerChunk(sampleRate), channels)
  }

  lemma MulMonotone(a: nat, b: nat, c: nat)
    requires a <= b
    ensures a * c <= b * c
  {
    var d := b - a;
    assert b * c == a * c + d * c;
  }

  lemma MulSucc(a: nat, c: nat)
    ensures (a + 1) * c == a * c + c
  {
  }

  /** Window c ends where window c + 1 begins, so at or before window j > c. */
  lemma WindowBefore(c: nat, j: nat, size: nat)
    requires c < j
    ensures 0 <= c * size
    ensures c * size + size == (c + 1) * size
    ensures c * size + size <= j * size
  {
    MulMonotone(c + 1, j, size);
  }

  /** Every (frame, channel) pair of a chunk has its offset inside the chunk. */
  lemma OffsetInChunk(g: Geometry, f: nat, ch: nat)
    requires f < g.frames && ch < g.channels
    ensures g.Offset(f, ch) < g.Size()
    ensures g.Offset(f, 0) + g.channels <= g.Size()
  {
    MulMonotone(f + 1, g.frames, g.channels);
  }

  /** Offsets of distinct (frame, channel) pairs are distinct. */
  lemma OffsetInjective(g: Geometry, f1: nat, ch1: nat, f2: nat, ch2: nat)
    requires ch1 < g.channels && ch2 < g.channels
    requires g.Offset(f1, ch1) == g.Offset(f2, ch2)
    ensures f1 == f2 && ch1 == ch2
  {
    if f1 < f2 {
      MulMonotone(f1 + 1, f2, g.channels);
      assert false;
    } else if f2 < f1 {
      MulMonotone(f2 + 1, f1, g.channels);
      assert false;
    }
  }

  /** Every position of a chunk is the offset of some (frame, channel) pair. */
  lemma OffsetCovers(g: Geometry, k: nat)
    requires k < g.Size()
    ensures k / g.channels < g.frames && k % g.channels < g.channels
    ensures g.Offset(k / g.channels, k % g.channels) == k
  {
    assert g.channels > 0;
    var f := k / g.channels;
    if f >= g.frames {
      MulMonotone(g.frames, f, g.channels);
      assert false;
    }
  }

  /** Number of chunks the in-place loop visits for `numSamples` samples:
      the loop index takes the values 0, size, 2*size, ... while below
      `numSamples`. */
  function ChunkCount(numSamples: nat, size: nat): (k: nat)
    requires numSamples > 0 ==> size > 0
    ensures k * size >= numSamples
    ensures k > 0 ==> (k - 1) * size < numSamples
  {
    if numSamples == 0 then 0
    else
      var k := (numSamples + size - 1) / size;
      assert k * size + (numSamples + size - 1) % size == numSamples + size - 1;
      k
  }

  /** A window [c*size, (c+1)*size) holding j is the one numbered j / size. */
  lemma WindowUnique(size: nat, j: nat, c: nat)
    requires c * size <= j < c * size + size
    ensures c == j / size
  {
    var c0 := j / size;
    assert c0 * size + j % size == j;
    if c < c0 {
      MulMonotone(c + 1, c0, size);
    } else if c0 < c {
      MulMonotone(c0 + 1, c, size);
    }
  }

  /** The chunk windows [c*size, (c+1)*size) for c < count partition
      [0, count*size): every sample index lies in exactly one window. */
  lemma WindowsPartition(count: nat, size: nat, j: nat)
    requires j < count * size
    ensures size > 0 && j / size < count
    ensures (j / size) * size <= j < (j / size) * size + size
    ensures forall c: nat :: c * size <= j < c * size + size ==> c == j / size
  {
    var c0 := j / size;
    assert c0 * size + j % size == j;
    if c0 >= count {
      MulMonotone(count, c0, size);
      assert false;
    }
    forall c: nat | c * size <= j < c * size + size
      ensures c == c0
    {
      WindowUnique(size, j, c);
    }
  }
}

=== FILE: driver.dfy ===
/** The streaming drivers: each turn reads one chunk's worth of samples into
    a chunk buffer, processes the whole buffer, and writes the whole buffer
    out. The loop goes on only while a read fills the buffer, so the turn of
    the first short read still processes and writes a whole chunk; three of
    the drivers also stop once their turn count passes a cap.

    The input stream is a sequence of samples. What a short read leaves in
    the buffer depends on how the driver buffers its chunks (see `Buffers`). */
module Driver {
  import opened Chunking
  import opened Layout
  import opened Mirror
  import opened Pipeline

  /** How a loop is bounded: with `AtMost(limit)` it breaks once its turn
      count exceeds `limit`. */
  datatype Cap = Unbounded | AtMost(limit: nat)

  /** Two drivers break once more than 10000 chunks were processed, the
      reference example once more than 30000. */
  const ShortCap: nat := 10000
  const LongCap: nat := 30000

  /** How a driver buffers its chunks.
      `InPlace`: samples are read straight into the interleaved chunk buffer,
      which is processed in place and written; a short read copies what
      remains over the front of the buffer, and the rest keeps the previous
      processed chunk.
      `ChannelBuffers`: the reference example's channel-buffer reader fills a
      separate input buffer only when a whole chunk could be read, and a
      short read leaves that buffer as it was (the previous input chunk); the
      processed chunk goes to a separate output buffer. */
  datatype Buffers = InPlace | ChannelBuffers

  /** The chunk buffer the next read lands in. */
  function Carry<T>(mode: Buffers, read: seq<T>, processed: seq<T>): (next: seq<T>)
    requires |read| == |processed|
    ensures |next| == |read|
  {
    if mode.InPlace? then processed else read
  }

  /** The context after the run, every sample written, and the number of
      chunks processed. */
  datatype Outcome<T> = Outcome(ctx: Context<T>, output: seq<T>, chunks: nat)

  function Min(a: int, b: int): int {
    if a <= b then a else b
  }

  /** One read into the chunk buffer: returns how many samples were read
      and the buffer afterwards. */
  function Read<T>(mode: Buffers, rest: seq<T>, buf: seq<T>): (r: (nat, seq<T>))
    ensures r.0 == Min(|rest|, |buf|) && |r.1| == |buf|
    ensures |buf| <= |rest| ==> r.1 == rest[..|buf|]
    ensures |rest| < |buf| && mode.InPlace? ==> r.1[..|rest|] == rest && r.1[|rest|..] == buf[|rest|..]
    ensures |rest| < |buf| && mode.ChannelBuffers? ==> r.1 == buf
  {
    var got := Min(|rest|, |buf|);
    if mode.ChannelBuffers? && got < |buf| then (got, buf) else (got, rest[..got] + buf[got..])
  }

  /** The driver loop from turn `count` on. */
  function Loop<T(!new)>(ctx: Context<T>, engine: Engine<T>, rest: seq<T>, buf: seq<T>, mode: Buffers, cap: Cap, count: nat): (o: Outcome<T>)
    requires |buf| == ctx.geometry.Size() && ShapePreserving(engine, ctx.geometry)
    requires cap.Unbounded? ==> |buf| > 0
    requires cap.AtMost? ==> count <= cap.limit
    ensures o.chunks >= 1
    ensures |o.output| == o.chunks * |buf|
    ensures SameSetup(o.ctx, ctx)
    decreases (if cap.AtMost? then cap.limit - count else 0), |rest|
  {
    var (got, loaded) := Read(mode, rest, buf);
    var (c1, processed) := Run(ctx, engine, loaded);
    if got < |buf| || (cap.AtMost? && count + 1 > cap.limit) then
      Outcome(c1, processed, 1)
    else
      var o := Loop(c1, engine, rest[got..], Carry(mode, loaded, processed), mode, cap, count + 1);
      MulSucc(o.chunks, |buf|);
      Outcome(o.ctx, processed + o.output, o.chunks + 1)
  }

  /** A turn that reads a full chunk within the cap goes on to the next. */
  lemma LoopContinues<T(!new)>(ctx: Context<T>, engine: Engine<T>, rest: seq<T>, buf: seq<T>, mode: Buffers, cap: Cap, count: nat)
    requires |buf| == ctx.geometry.Size() && ShapePreserving(engine, ctx.geometry)
    requires cap.Unbounded? ==> |buf| > 0
    requires cap.AtMost? ==> count + 1 <= cap.limit
    requires |buf| <= |rest|
    ensures var loaded := Read(mode, rest, buf).1;
            var r := Run(ctx, engine, loaded);
            var o := Loop(r.0, engine, rest[|buf|..], Carry(mode, loaded, r.1), mode, cap, count + 1);
            Loop(ctx, engine, rest, buf, mode, cap, count) == Outcome(o.ctx, r.1 + o.output, o.chunks + 1)
  {
  }

  /** A turn that reads a short chunk, or passes the cap, is the last. */
  lemma LoopStops<T(!new)>(ctx: Context<T>, engine: Engine<T>, rest: seq<T>, buf: seq<T>, mode: Buffers, cap: Cap, count: nat)
    requires |buf| == ctx.geometry.Size() && ShapePreserving(engine, ctx.geometry)
    requires cap.Unbounded? ==> |buf| > 0
    requires cap.AtMost? ==> count <= cap.limit
    requires |rest| < |buf| || (cap.AtMost? && count + 1 > cap.limit)
    ensures var r := Run(ctx, engine, Read(mode, rest, buf).1);
            Loop(ctx, engine, rest, buf, mode, cap, count) == Outcome(r.0, r.1, 1)
  {
  }

  /** The number of turns: one per full chunk of input plus the turn of the
      first short read, unless the cap ends the loop first. */
  function ExpectedChunks(len: nat, n: nat, cap: Cap, count: nat): nat
    requires cap.Unbounded? ==> n > 0
    requires cap.AtMost? ==> count <= cap.limit
  {
    match cap
    case Unbounded => len / n + 1
    case AtMost(limit) => if n == 0 then limit + 1 - count else Min(len / n + 1, limit + 1 - count)
  }

  lemma DivStep(len: nat, n: nat)
    requires 0 < n <= len
    ensures (len - n) / n == len / n - 1
  {
    var q := (len - n) / n;
    assert q * n + (len - n) % n == len - n;
    assert (q + 1) * n == q * n + n;
    WindowUnique(n, len, q + 1);
  }

  /** After a full read that does not pass the cap, one turn is done and the
      rest of the input is still to come. */
  lemma ExpectedStep(len: nat, n: nat, cap: Cap, count: nat)
    requires n <= len
    requires cap.Unbounded? ==> n > 0
    requires cap.AtMost? ==> count + 1 <= cap.limit
    ensures ExpectedChunks(len, n, cap, count) == ExpectedChunks(len - n, n, cap, count + 1) + 1
  {
    if n > 0 {
      DivStep(len, n);
    }
  }

  /** A short read or a passed cap leaves exactly the current turn. */
  lemma ExpectedStop(len: nat, n: nat, cap: Cap, count: nat)
    requires cap.Unbounded? ==> n > 0
    requires cap.AtMost? ==> count <= cap.limit
    requires len < n || (cap.AtMost? && count + 1 > cap.limit)
    ensures ExpectedChunks(len, n, cap, count) == 1
  {
    if len < n {
      assert len / n == 0;
    }
  }

  /** The loop stops after the turn of the first short read, or when the cap
      is passed, whichever comes first. */
  lemma {:induction false} LoopChunks<T(!new)>(ctx: Context<T>, engine: Engine<T>, rest: seq<T>, buf: seq<T>, mode: Buffers, cap: Cap, count: nat)
    requires |buf| == ctx.geometry.Size() && ShapePreserving(engine, ctx.geometry)
    requires cap.Unbounded? ==> |buf| > 0
    requires cap.AtMost? ==> count <= cap.limit
    ensures Loop(ctx, engine, rest, buf, mode, cap, count).chunks == ExpectedChunks(|rest|, |buf|, cap, count)
    decreases (if cap.AtMost? then cap.limit - count else 0), |rest|
  {
    var n := |buf|;
    var (got, loaded) := Read(mode, rest, buf);
    var (c1, processed) := Run(ctx, engine, loaded);
    var next := Carry(mode, loaded, processed);
    if got < n || (cap.AtMost? && count + 1 > cap.limit) {
      ExpectedStop(|rest|, n, cap, count);
    } else {
      LoopChunks(c1, engine, rest[got..], next, mode, cap, count + 1);
      ExpectedStep(|rest|, n, cap, count);
    }
  }

  /** A capped loop started at turn 0 processes at most limit + 1 chunks,
      and exactly that many unless a short read comes first. */
  lemma CappedChunks<T(!new)>(ctx: Context<T>, engine: Engine<T>, rest: seq<T>, buf: seq<T>, mode: Buffers, limit: nat)
    requires |buf| == ctx.geometry.Size() && ShapePreserving(engine, ctx.geometry)
    ensures var o := Loop(ctx, engine, rest, buf, mode, AtMost(limit), 0);
            o.chunks <= limit + 1 &&
            (|buf| > 0 ==> o.chunks == Min(|rest| / |buf| + 1, limit + 1)) &&
            |o.output| == o.chunks * |buf|
  {
    LoopChunks(ctx, engine, rest, buf, mode, AtMost(limit), 0);
  }

  lemma PrefixAppend<T>(head: seq<T>, tail: seq<T>, rest: seq<T>, m: nat)
    requires |head| <= |rest| && head == rest[..|head|]
    requires m <= |tail| && |head| + m <= |rest|
    requires tail[..m] == rest[|head|..][..m]
    ensures (head + tail)[..|head| + m] == rest[..|head| + m]
  {
    assert (head + tail)[..|head| + m] == head + tail[..m];
    assert rest[..|head| + m] == rest[..|head|] + rest[|head|..][..m];
  }

  /** The length of the whole chunks at the front of `len` samples: the
      input without its final partial chunk. */
  function WholeChunks(len: nat, n: nat): (w: nat)
    requires n > 0
    ensures w <= len && len - w < n
    ensures w == 0 || n <= w
    decreases len
  {
    if len < n then 0 else n + WholeChunks(len - n, n)
  }

  /** The whole chunks are the input less its remainder modulo the chunk size. */
  lemma {:induction false} WholeChunksMod(len: nat, n: nat)
    requires n > 0
    ensures WholeChunks(len, n) == len - len % n
    decreases len
  {
    if len < n {
      ModSmall(len, n);
    } else {
      WholeChunksMod(len - n, n);
      ModStep(len, n);
    }
  }

  lemma ModSmall(len: nat, n: nat)
    requires len < n
    ensures len % n == len
  {
  }

  /** How many input samples reach the output in order: all of them for the
      in-place drivers; for the reference example only its whole chunks,
      since a short read there leaves the input buffer as it was. */
  function Delivered(mode: Buffers, len: nat, n: nat): nat {
    if mode.InPlace? || n == 0 then len else WholeChunks(len, n)
  }

  lemma DeliveredBound(mode: Buffers, len: nat, n: nat)
    ensures Delivered(mode, len, n) <= len
    ensures n > 0 && len < n ==> Delivered(mode, len, n) == (if mode.InPlace? then len else 0)
  {
  }

  /** After a full read, one chunk is delivered and the rest is still to come. */
  lemma DeliveredStep(mode: Buffers, len: nat, n: nat)
    requires n <= len
    ensures Delivered(mode, len, n) == n + Delivered(mode, len - n, n)
  {
  }

  /** The chunk of a single read holds the samples it delivers. */
  lemma ReadDelivers<T>(mode: Buffers, rest: seq<T>, buf: seq<T>)
    ensures var m := Min(Delivered(mode, |rest|, |buf|), |buf|);
            m <= |rest| && Read(mode, rest, buf).1[..m] == rest[..m]
  {
    DeliveredBound(mode, |rest|, |buf|);
    var m := Min(Delivered(mode, |rest|, |buf|), |buf|);
    var loaded := Read(mode, rest, buf).1;
    if |buf| <= |rest| {
      assert loaded[..m] == rest[..|buf|][..m];
    } else if mode.InPlace? {
      assert loaded[..m] == loaded[..|rest|];
    }
  }

  /** With an engine that changes nothing, a full turn within the cap
      writes exactly the chunk it read, the next `n` input samples, and
      carries that chunk on as the next turn's buffer. */
  lemma IdentityContinues<T(!new)>(ctx: Context<T>, rest: seq<T>, buf: seq<T>, mode: Buffers, cap: Cap, count: nat)
    requires |buf| == ctx.geometry.Size()
    requires cap.Unbounded? ==> |buf| > 0
    requires cap.AtMost? ==> count + 1 <= cap.limit
    requires |buf| <= |rest|
    ensures var c1 := Run(ctx, Identity(), rest[..|buf|]).0;
            var o := Loop(c1, Identity(), rest[|buf|..], rest[..|buf|], mode, cap, count + 1);
            Loop(ctx, Identity(), rest, buf, mode, cap, count).output == rest[..|buf|] + o.output
  {
    RunIdentity(ctx, rest[..|buf|]);
    LoopContinues(ctx, Identity(), rest, buf, mode, cap, count);
  }

  /** The output begins with the input the loop delivers, as far as the
      output reaches. */
  ghost predicate KeptPrefix<T>(mode: Buffers, rest: seq<T>, n: nat, out: seq<T>) {
    var m := Min(Delivered(mode, |rest|, n), |out|);
    m <= |rest| && out[..m] == rest[..m]
  }

  /** One full turn's share of the next lemma: the turn's chunk is the
      next `n` input samples, so what the rest of the loop delivers follows on. */
  lemma KeepStep<T>(head: seq<T>, out: seq<T>, rest: seq<T>, n: nat, dAll: nat, dTail: nat)
    requires |head| == n && n <= |rest| && head == rest[..n]
    requires dAll == n + dTail
    requires Min(dTail, |out|) <= |rest| - n && out[..Min(dTail, |out|)] == rest[n..][..Min(dTail, |out|)]
    ensures Min(dAll, |head + out|) <= |rest| && (head + out)[..Min(dAll, |head + out|)] == rest[..Min(dAll, |head + out|)]
  {
    var m := Min(dTail, |out|);
    PrefixAppend(head, out, rest, m);
    assert Min(dAll, |head + out|) == n + m;
  }

  /** No input sample is altered or reordered by the loop itself: with an
      engine that changes nothing, the output begins with the delivered
      input, as far as the output reaches. For the in-place drivers that is
      the whole input; the reference example drops a final partial chunk. */
  lemma {:induction false} LoopKeepsInput<T(!new)>(ctx: Context<T>, rest: seq<T>, buf: seq<T>, mode: Buffers, cap: Cap, count: nat)
    requires |buf| == ctx.geometry.Size()
    requires cap.Unbounded? ==> |buf| > 0
    requires cap.AtMost? ==> count <= cap.limit
    ensures KeptPrefix(mode, rest, |buf|, Loop(ctx, Identity(), rest, buf, mode, cap, count).output)
    decreases (if cap.AtMost? then cap.limit - count else 0), |rest|
  {
    var n := |buf|;
    if |rest| < n || (cap.AtMost? && count + 1 > cap.limit) {
      KeepsStop(ctx, rest, buf, mode, cap, count);
    } else {
      var c1 := Run(ctx, Identity(), rest[..n]).0;
      LoopKeepsInput(c1, rest[n..], rest[..n], mode, cap, count + 1);
      KeepsContinue(ctx, rest, buf, mode, cap, count);
    }
  }

  /** The last turn of the previous lemma: its one chunk is the chunk read. */
  lemma KeepsStop<T(!new)>(ctx: Context<T>, rest: seq<T>, buf: seq<T>, mode: Buffers, cap: Cap, count: nat)
    requires |buf| == ctx.geometry.Size()
    requires cap.Unbounded? ==> |buf| > 0
    requires cap.AtMost? ==> count <= cap.limit
    requires |rest| < |buf| || (cap.AtMost? && count + 1 > cap.limit)
    ensures KeptPrefix(mode, rest, |buf|, Loop(ctx, Identity(), rest, buf, mode, cap, count).output)
  {
    RunIdentity(ctx, Read(mode, rest, buf).1);
    LoopStops(ctx, Identity(), rest, buf, mode, cap, count);
    ReadDelivers(mode, rest, buf);
  }

  /** One full turn of the previous lemma: what the rest of the loop keeps
      of the rest of the input, the whole loop keeps one chunk further on. */
  lemma KeepsContinue<T(!new)>(ctx: Context<T>, rest: seq<T>, buf: seq<T>, mode: Buffers, cap: Cap, count: nat)
    requires |buf| == ctx.geometry.Size() && |buf| <= |rest|
    requires cap.Unbounded? ==> |buf| > 0
    requires cap.AtMost? ==> count + 1 <= cap.limit
    requires var c1 := Run(ctx, Identity(), rest[..|buf|]).0;
             KeptPrefix(mode, rest[|buf|..], |buf|, Loop(c1, Identity(), rest[|buf|..], rest[..|buf|], mode, cap, count + 1).output)
    ensures KeptPrefix(mode, rest, |buf|, Loop(ctx, Identity(), rest, buf, mode, cap, count).output)
  {
    var n := |buf|;
    IdentityContinues(ctx, rest, buf, mode, cap, count);
    var c1 := Run(ctx, Identity(), rest[..n]).0;
    var o := Loop(c1, Identity(), rest[n..], rest[..n], mode, cap, count + 1);
    KeepsAfterTurn(mode, rest, n, Loop(ctx, Identity(), rest, buf, mode, cap, count).output, o.output);
  }

  /** The sequence reasoning of the previous lemma: an output that starts
      with the first chunk and goes on with what keeps the rest of the input
      keeps the whole input. */
  lemma KeepsAfterTurn<T>(mode: Buffers, rest: seq<T>, n: nat, all: seq<T>, inner: seq<T>)
    requires n <= |rest| && all == rest[..n] + inner
    requires KeptPrefix(mode, rest[n..], n, inner)
    ensures KeptPrefix(mode, rest, n, all)
  {
    assert |rest[n..]| == |rest| - n;
    DeliveredStep(mode, |rest|, n);
    KeepStep(rest[..n], inner, rest, n, Delivered(mode, |rest|, n), Delivered(mode, |rest| - n, n));
  }

  lemma ModStep(len: nat, n: nat)
    requires 0 < n <= len
    ensures (len - n) % n == len % n
  {
    DivStep(len, n);
    assert (len / n - 1) * n == (len / n) * n - n;
  }

  /** The chunk in the buffer after the last whole read: the last whole
      chunk of the input, or the buffer's initial contents if there was none. */
  function LastWhole<T>(rest: seq<T>, buf: seq<T>, whole: nat): (prev: seq<T>)
    requires whole <= |rest| && (whole == 0 || |buf| <= whole)
    ensures |prev| == |buf|
  {
    if whole == 0 then buf else rest[whole - |buf| .. whole]
  }

  /** The last chunk the loop writes when the engine changes nothing. The
      last read brings no new whole chunk, so the buffer still holds
      LastWhole. The in-place drivers read the final partial chunk over its
      front; the reference example leaves it as it was. */
  function FinalChunk<T>(mode: Buffers, rest: seq<T>, buf: seq<T>, whole: nat): (last: seq<T>)
    requires whole <= |rest| < whole + |buf|
    requires whole == 0 || |buf| <= whole
    ensures |last| == |buf|
  {
    var prev := LastWhole(rest, buf, whole);
    if mode.InPlace? then rest[whole..] + prev[|rest| - whole ..] else prev
  }

  /** What the chunk buffer holds when the final short read lands in it,
      for any engine: after at least one whole read, the in-place drivers
      hold the last chunk they wrote (the processed one), the reference
      example the last whole input chunk; before any, the initial buffer. */
  function Carried<T>(mode: Buffers, rest: seq<T>, buf: seq<T>, out: seq<T>, whole: nat): (carried: seq<T>)
    requires whole <= |rest| && whole <= |out| && (whole == 0 || |buf| <= whole)
    ensures |carried| == |buf|
  {
    if mode.InPlace? && whole > 0 then out[whole - |buf| .. whole] else LastWhole(rest, buf, whole)
  }

  /** The last turn's chunk. Let `whole` be the input without its final
      partial chunk. The output is `whole` plus one chunk, and with an engine
      that changes nothing that extra chunk is FinalChunk: for the in-place
      drivers the final partial chunk followed by the stale end of the
      previous chunk, for the reference example the last whole input chunk
      once more, its final partial chunk being dropped. */
  lemma {:induction false} LoopRepeatsLastChunk<T(!new)>(ctx: Context<T>, rest: seq<T>, buf: seq<T>, mode: Buffers, count: nat, whole: nat)
    requires |buf| == ctx.geometry.Size() && |buf| > 0
    requires whole == WholeChunks(|rest|, |buf|)
    ensures var o := Loop(ctx, Identity(), rest, buf, mode, Unbounded, count);
            |o.output| == whole + |buf| &&
            o.output[whole..] == FinalChunk(mode, rest, buf, whole)
    decreases |rest|
  {
    var n := |buf|;
    if |rest| < n {
      LastChunkAlone(ctx, rest, buf, mode, count);
    } else {
      var w1 := WholeChunks(|rest| - n, n);
      var c1 := Run(ctx, Identity(), rest[..n]).0;
      LoopRepeatsLastChunk(c1, rest[n..], rest[..n], mode, count + 1, w1);
      RepeatsContinue(ctx, rest, buf, mode, count, whole, w1);
    }
  }

  /** One full turn of the previous lemma: what the rest of the loop
      repeats, the whole loop repeats one chunk further on. */
  lemma RepeatsContinue<T(!new)>(ctx: Context<T>, rest: seq<T>, buf: seq<T>, mode: Buffers, count: nat, whole: nat, w1: nat)
    requires |buf| == ctx.geometry.Size() && 0 < |buf| <= |rest|
    requires whole == WholeChunks(|rest|, |buf|) && w1 == WholeChunks(|rest| - |buf|, |buf|)
    requires var c1 := Run(ctx, Identity(), rest[..|buf|]).0;
             var o := Loop(c1, Identity(), rest[|buf|..], rest[..|buf|], mode, Unbounded, count + 1);
             |o.output| == w1 + |buf| &&
             o.output[w1..] == FinalChunk(mode, rest[|buf|..], rest[..|buf|], w1)
    ensures var o := Loop(ctx, Identity(), rest, buf, mode, Unbounded, count);
            |o.output| == whole + |buf| &&
            o.output[whole..] == FinalChunk(mode, rest, buf, whole)
  {
    var n := |buf|;
    assert whole == n + w1;
    IdentityContinues(ctx, rest, buf, mode, Unbounded, count);
    var c1 := Run(ctx, Identity(), rest[..n]).0;
    var inner := Loop(c1, Identity(), rest[n..], rest[..n], mode, Unbounded, count + 1);
    var o := Loop(ctx, Identity(), rest, buf, mode, Unbounded, count);
    assert o.output == rest[..n] + inner.output;
    FinalChunkShift(mode, rest, buf, w1, whole);
    RepeatShift(rest[..n], inner.output, n, w1, whole, FinalChunk(mode, rest, buf, whole));
  }

  /** With less than a chunk of input left, the last read is the only one:
      the in-place drivers read what is left over the buffer's front, the
      reference example leaves the buffer as it was. */
  lemma LastChunkAlone<T(!new)>(ctx: Context<T>, rest: seq<T>, buf: seq<T>, mode: Buffers, count: nat)
    requires |buf| == ctx.geometry.Size() && 0 < |buf| && |rest| < |buf|
    ensures Loop(ctx, Identity(), rest, buf, mode, Unbounded, count).output == FinalChunk(mode, rest, buf, 0)
  {
    var loaded := Read(mode, rest, buf).1;
    RunIdentity(ctx, loaded);
    LoopStops(ctx, Identity(), rest, buf, mode, Unbounded, count);
    assert loaded == FinalChunk(mode, rest, buf, 0) by {
      if mode.InPlace? {
        assert loaded == loaded[..|rest|] + loaded[|rest|..];
      }
    }
  }

  /** The final chunk seen from one full chunk further on is the same chunk. */
  lemma FinalChunkShift<T>(mode: Buffers, rest: seq<T>, buf: seq<T>, w1: nat, whole: nat)
    requires 0 < |buf| && whole == |buf| + w1
    requires whole <= |rest| < whole + |buf| && (w1 == 0 || |buf| <= w1)
    ensures FinalChunk(mode, rest[|buf|..], rest[..|buf|], w1) == FinalChunk(mode, rest, buf, whole)
  {
    var n := |buf|;
    LastWholeShift(rest, buf, w1, whole);
    if mode.InPlace? {
      assert rest[n..][w1..] == rest[whole..];
    }
  }

  /** The last whole chunk seen from one full chunk further on is the same
      chunk: the first chunk itself if no other whole chunk follows it. */
  lemma LastWholeShift<T>(rest: seq<T>, buf: seq<T>, w1: nat, whole: nat)
    requires 0 < |buf| && whole == |buf| + w1
    requires whole <= |rest| && (w1 == 0 || |buf| <= w1)
    ensures LastWhole(rest[|buf|..], rest[..|buf|], w1) == LastWhole(rest, buf, whole)
  {
    var n := |buf|;
    if w1 > 0 {
      assert rest[n..][w1 - n .. w1] == rest[whole - n .. whole];
    }
  }

  /** One full turn's share of the previous lemma: the turn's chunk comes
      first, so the rest of the loop's output is shifted by it. */
  lemma RepeatShift<T>(head: seq<T>, out: seq<T>, n: nat, w1: nat, whole: nat, last: seq<T>)
    requires |head| == n && whole == n + w1
    requires |out| == w1 + n && out[w1..] == last
    ensures |head + out| == whole + n
    ensures (head + out)[whole..] == last
  {
    assert (head + out)[whole..] == out[w1..];
  }

  /** `out` is `whole` samples followed by one last chunk, and that chunk is
      what Run, from some context with the same setup as `ctx`, makes of
      the final short read of `rest[whole..]` landing in the carried buffer. */
  ghost predicate EndsWithLastTurn<T(!new)>(ctx: Context<T>, engine: Engine<T>, mode: Buffers, rest: seq<T>, buf: seq<T>, whole: nat, out: seq<T>) {
    whole <= |rest| && (whole == 0 || |buf| <= whole) &&
    |buf| == ctx.geometry.Size() && ShapePreserving(engine, ctx.geometry) &&
    |out| == whole + |buf| &&
    exists c: Context<T> :: SameSetup(c, ctx) &&
      out[whole..] == Run(c, engine, Read(mode, rest[whole..], Carried(mode, rest, buf, out, whole)).1).1
  }

  /** The last turn, for any engine. The output is the input's whole chunks
      plus one chunk, and that chunk is the engine's work on the final short
      read landing in the carried buffer: the in-place drivers reprocess the
      tail of the chunk they last wrote behind the partial input, the
      reference example reprocesses its last whole input chunk. */
  lemma {:induction false} LoopLastTurn<T(!new)>(ctx: Context<T>, engine: Engine<T>, rest: seq<T>, buf: seq<T>, mode: Buffers, count: nat, whole: nat)
    requires |buf| == ctx.geometry.Size() && ShapePreserving(engine, ctx.geometry) && |buf| > 0
    requires whole == WholeChunks(|rest|, |buf|)
    ensures EndsWithLastTurn(ctx, engine, mode, rest, buf, whole, Loop(ctx, engine, rest, buf, mode, Unbounded, count).output)
    decreases |rest|
  {
    var n := |buf|;
    if |rest| < n {
      LastTurnAlone(ctx, engine, rest, buf, mode, count);
    } else {
      var r := Run(ctx, engine, rest[..n]);
      var w1 := WholeChunks(|rest| - n, n);
      LoopLastTurn(r.0, engine, rest[n..], Carry(mode, rest[..n], r.1), mode, count + 1, w1);
      LastTurnContinues(ctx, engine, rest, buf, mode, count, whole, w1);
    }
  }

  /** The last turn of the previous lemma when it is also the first. */
  lemma LastTurnAlone<T(!new)>(ctx: Context<T>, engine: Engine<T>, rest: seq<T>, buf: seq<T>, mode: Buffers, count: nat)
    requires |buf| == ctx.geometry.Size() && ShapePreserving(engine, ctx.geometry) && 0 < |buf| && |rest| < |buf|
    ensures EndsWithLastTurn(ctx, engine, mode, rest, buf, 0, Loop(ctx, engine, rest, buf, mode, Unbounded, count).output)
  {
    LoopStops(ctx, engine, rest, buf, mode, Unbounded, count);
    var o := Loop(ctx, engine, rest, buf, mode, Unbounded, count);
    assert o.output[0..] == o.output && rest[0..] == rest;
    assert Carried(mode, rest, buf, o.output, 0) == buf;
  }

  /** One full turn of the previous lemma: the last turn of the rest of the
      loop is the last turn of the whole loop, one chunk further on. */
  lemma LastTurnContinues<T(!new)>(ctx: Context<T>, engine: Engine<T>, rest: seq<T>, buf: seq<T>, mode: Buffers, count: nat, whole: nat, w1: nat)
    requires |buf| == ctx.geometry.Size() && ShapePreserving(engine, ctx.geometry) && 0 < |buf| <= |rest|
    requires whole == WholeChunks(|rest|, |buf|) && w1 == WholeChunks(|rest| - |buf|, |buf|)
    requires var r := Run(ctx, engine, rest[..|buf|]);
             var next := Carry(mode, rest[..|buf|], r.1);
             EndsWithLastTurn(r.0, engine, mode, rest[|buf|..], next, w1, Loop(r.0, engine, rest[|buf|..], next, mode, Unbounded, count + 1).output)
    ensures EndsWithLastTurn(ctx, engine, mode, rest, buf, whole, Loop(ctx, engine, rest, buf, mode, Unbounded, count).output)
  {
    var n := |buf|;
    assert whole == n + w1;
    LoopContinues(ctx, engine, rest, buf, mode, Unbounded, count);
    var r := Run(ctx, engine, rest[..n]);
    var next := Carry(mode, rest[..n], r.1);
    var inner := Loop(r.0, engine, rest[n..], next, mode, Unbounded, count + 1);
    var o := Loop(ctx, engine, rest, buf, mode, Unbounded, count);
    assert o.output == r.1 + inner.output;
    var c: Context<T> :| SameSetup(c, r.0) &&
      inner.output[w1..] == Run(c, engine, Read(mode, rest[n..][w1..], Carried(mode, rest[n..], next, inner.output, w1)).1).1;
    CarriedShift(mode, rest, buf, r.1, inner.output, w1, whole);
    assert SameSetup(c, ctx);
    assert o.output[whole..] == Run(c, engine, Read(mode, rest[whole..], Carried(mode, rest, buf, o.output, whole)).1).1;
  }

  /** The sequence facts of the previous lemma: the carried buffer, the
      remaining input and the last chunk written are the same seen from one
      full chunk further on. */
  lemma CarriedShift<T>(mode: Buffers, rest: seq<T>, buf: seq<T>, head: seq<T>, out: seq<T>, w1: nat, whole: nat)
    requires 0 < |buf| && |head| == |buf| && whole == |buf| + w1 && whole <= |rest|
    requires |out| == w1 + |buf| && (w1 == 0 || |buf| <= w1)
    ensures rest[|buf|..][w1..] == rest[whole..]
    ensures (head + out)[whole..] == out[w1..]
    ensures Carried(mode, rest[|buf|..], Carry(mode, rest[..|buf|], head), out, w1) == Carried(mode, rest, buf, head + out, whole)
  {
    var n := |buf|;
    assert rest[n..][w1..] == rest[whole..];
    assert (head + out)[whole..] == out[w1..];
    if mode.InPlace? {
      if w1 == 0 {
        assert (head + out)[whole - n .. whole] == head;
      } else {
        assert (head + out)[whole - n .. whole] == out[w1 - n .. w1];
      }
    } else {
      LastWholeShift(rest, buf, w1, whole);
    }
  }

  /** Below its cap a capped loop is the uncapped loop: with at most
      `limit - count` whole chunks of input left, the cap never ends it. */
  lemma {:induction false} CapUnreached<T(!new)>(ctx: Context<T>, engine: Engine<T>, rest: seq<T>, buf: seq<T>, mode: Buffers, limit: nat, count: nat)
    requires |buf| == ctx.geometry.Size() && ShapePreserving(engine, ctx.geometry) && |buf| > 0
    requires count + |rest| / |buf| <= limit
    ensures Loop(ctx, engine, rest, buf, mode, AtMost(limit), count) == Loop(ctx, engine, rest, buf, mode, Unbounded, count)
    decreases |rest|
  {
    var n := |buf|;
    if |rest| < n {
      LoopStops(ctx, engine, rest, buf, mode, AtMost(limit), count);
      LoopStops(ctx, engine, rest, buf, mode, Unbounded, count);
    } else {
      CapStep(|rest|, n, limit, count);
      assert |rest[n..]| == |rest| - n;
      var r := Run(ctx, engine, rest[..n]);
      CapUnreached(r.0, engine, rest[n..], Carry(mode, rest[..n], r.1), mode, limit, count + 1);
      CapContinues(ctx, engine, rest, buf, mode, limit, count);
    }
  }

  /** A full read uses up one turn of the cap and one whole chunk. */
  lemma CapStep(len: nat, n: nat, limit: nat, count: nat)
    requires 0 < n <= len && count + len / n <= limit
    ensures count + 1 <= limit && count + 1 + (len - n) / n <= limit
  {
    DivStep(len, n);
  }

  /** One full turn of the previous lemma. */
  lemma CapContinues<T(!new)>(ctx: Context<T>, engine: Engine<T>, rest: seq<T>, buf: seq<T>, mode: Buffers, limit: nat, count: nat)
    requires |buf| == ctx.geometry.Size() && ShapePreserving(engine, ctx.geometry) && 0 < |buf| <= |rest|
    requires count + 1 <= limit
    requires var r := Run(ctx, engine, rest[..|buf|]);
             var next := Carry(mode, rest[..|buf|], r.1);
             Loop(r.0, engine, rest[|buf|..], next, mode, AtMost(limit), count + 1)
               == Loop(r.0, engine, rest[|buf|..], next, mode, Unbounded, count + 1)
    ensures Loop(ctx, engine, rest, buf, mode, AtMost(limit), count) == Loop(ctx, engine, rest, buf, mode, Unbounded, count)
  {
    LoopContinues(ctx, engine, rest, buf, mode, AtMost(limit), count);
    LoopContinues(ctx, engine, rest, buf, mode, Unbounded, count);
  }

  /** The engine runs exactly once per chunk written, and the log stays
      well ordered. */
  lemma {:induction false} LoopProcessCount<T(!new)>(ctx: Context<T>, engine: Engine<T>, rest: seq<T>, buf: seq<T>, mode: Buffers, cap: Cap, count: nat)
    requires |buf| == ctx.geometry.Size() && ShapePreserving(engine, ctx.geometry)
    requires cap.Unbounded? ==> |buf| > 0
    requires cap.AtMost? ==> count <= cap.limit
    requires WellOrdered(ctx.log)
    ensures var o := Loop(ctx, engine, rest, buf, mode, cap, count);
            WellOrdered(o.ctx.log) && ProcessCount(o.ctx.log) == ProcessCount(ctx.log) + o.chunks
    decreases (if cap.AtMost? then cap.limit - count else 0), |rest|
  {
    var loaded := Read(mode, rest, buf).1;
    var r := Run(ctx, engine, loaded);
    RunCounts(ctx, engine, loaded);
    if |rest| < |buf| || (cap.AtMost? && count + 1 > cap.limit) {
      LoopStops(ctx, engine, rest, buf, mode, cap, count);
    } else {
      LoopProcessCount(r.0, engine, rest[|buf|..], Carry(mode, loaded, r.1), mode, cap, count + 1);
      LoopContinues(ctx, engine, rest, buf, mode, cap, count);
      var o := Loop(ctx, engine, rest, buf, mode, cap, count);
      var o1 := Loop(r.0, engine, rest[|buf|..], Carry(mode, loaded, r.1), mode, cap, count + 1);
      assert o.ctx == o1.ctx && o.chunks == o1.chunks + 1;
    }
  }

  /** One turn runs the engine once and keeps the log well ordered. */
  lemma RunCounts<T(!new)>(ctx: Context<T>, engine: Engine<T>, chunk: seq<T>)
    requires |chunk| == ctx.geometry.Size() && ShapePreserving(engine, ctx.geometry)
    requires WellOrdered(ctx.log)
    ensures WellOrdered(Run(ctx, engine, chunk).0.log)
    ensures ProcessCount(Run(ctx, engine, chunk).0.log) == ProcessCount(ctx.log) + 1
  {
    PerformInvariant(ctx, engine, RunOp(chunk));
    assert Perform(ctx, engine, RunOp(chunk)) == Run(ctx, engine, chunk).0;
  }

  /** The debug mirrors never change what the loop writes, how many chunks
      it processes, or what the engine is handed. */
  lemma {:induction false} LoopIgnoresMirrors<T(!new)>(ctx: Context<T>, engine: Engine<T>, rest: seq<T>, buf: seq<T>,
                                                       mode: Buffers, cap: Cap, count: nat, m: Mirrors<T>)
    requires |buf| == ctx.geometry.Size() && ShapePreserving(engine, ctx.geometry)
    requires cap.Unbounded? ==> |buf| > 0
    requires cap.AtMost? ==> count <= cap.limit
    ensures var a := Loop(ctx.(mirrors := m), engine, rest, buf, mode, cap, count);
            var b := Loop(ctx, engine, rest, buf, mode, cap, count);
            a.output == b.output && a.chunks == b.chunks && a.ctx.log == b.ctx.log
    decreases (if cap.AtMost? then cap.limit - count else 0), |rest|
  {
    if |rest| < |buf| || (cap.AtMost? && count + 1 > cap.limit) {
      var loaded := Read(mode, rest, buf).1;
      RunIgnoresMirrors(ctx, engine, loaded, m);
      LoopStops(ctx, engine, rest, buf, mode, cap, count);
      LoopStops(ctx.(mirrors := m), engine, rest, buf, mode, cap, count);
    } else {
      var loaded := Read(mode, rest, buf).1;
      var r := Run(ctx, engine, loaded);
      var d1 := Run(ctx.(mirrors := m), engine, loaded).0;
      LoopIgnoresMirrors(r.0, engine, rest[|buf|..], Carry(mode, loaded, r.1), mode, cap, count + 1, d1.mirrors);
      IgnoresContinue(ctx, engine, rest, buf, mode, cap, count, m);
    }
  }

  /** One full turn of the previous lemma: the turn itself ignores the
      mirrors, so the two loops go on from contexts that differ only in them. */
  lemma IgnoresContinue<T(!new)>(ctx: Context<T>, engine: Engine<T>, rest: seq<T>, buf: seq<T>,
                                 mode: Buffers, cap: Cap, count: nat, m: Mirrors<T>)
    requires |buf| == ctx.geometry.Size() && ShapePreserving(engine, ctx.geometry)
    requires cap.Unbounded? ==> |buf| > 0
    requires cap.AtMost? ==> count + 1 <= cap.limit
    requires |buf| <= |rest|
    requires var loaded := Read(mode, rest, buf).1;
             var r := Run(ctx, engine, loaded);
             var d1 := Run(ctx.(mirrors := m), engine, loaded).0;
             var a := Loop(r.0.(mirrors := d1.mirrors), engine, rest[|buf|..], Carry(mode, loaded, r.1), mode, cap, count + 1);
             var b := Loop(r.0, engine, rest[|buf|..], Carry(mode, loaded, r.1), mode, cap, count + 1);
             a.output == b.output && a.chunks == b.chunks && a.ctx.log == b.ctx.log
    ensures var a := Loop(ctx.(mirrors := m), engine, rest, buf, mode, cap, count);
            var b := Loop(ctx, engine, rest, buf, mode, cap, count);
            a.output == b.output && a.chunks == b.chunks && a.ctx.log == b.ctx.log
  {
    var loaded := Read(mode, rest, buf).1;
    RunIgnoresMirrors(ctx, engine, loaded, m);
    var r := Run(ctx, engine, loaded);
    var d1 := Run(ctx.(mirrors := m), engine, loaded).0;
    LoopContinues(ctx, engine, rest, buf, mode, cap, count);
    LoopContinues(ctx.(mirrors := m), engine, rest, buf, mode, cap, count);
    assert d1 == r.0.(mirrors := d1.mirrors);
  }

  // ---------------------------------------------------------------------
  // The four drivers

  /** The chunk buffer: frames times channels samples, initially silence. */
  function ChunkBuffer<T>(g: Geometry, silence: T): (buf: seq<T>)
    ensures |buf| == g.Size()
    ensures forall i :: 0 <= i < |buf| ==> buf[i] == silence
  {
    seq(g.Size(), _ => silence)
  }

  /** The driver over the plain initialiser (5 dB, adaptive on) with no
      cap. Each turn hands its chunk to the in-place interleaved processor;
      the model writes that turn as `Run`, which is what the processor does
      to a one-chunk buffer while the input mirror is closed
      (`ChunkLoop.SingleChunkIsRun`). */
  function MyAgc2<T(!new)>(sampleRate: nat, channels: nat, engine: Engine<T>, input: seq<T>, silence: T): (o: Outcome<T>)
    requires ShapePreserving(engine, ChunkGeometry(sampleRate, channels))
    requires ChunkGeometry(sampleRate, channels).Size() > 0
    ensures o.chunks == |input| / ChunkGeometry(sampleRate, channels).Size() + 1
    ensures |o.output| == o.chunks * ChunkGeometry(sampleRate, channels).Size()
  {
    var ctx := InitContext(sampleRate, channels, 5.0, true);
    LoopChunks(ctx, engine, input, ChunkBuffer(ctx.geometry, silence), InPlace, Unbounded, 0);
    Loop(ctx, engine, input, ChunkBuffer(ctx.geometry, silence), InPlace, Unbounded, 0)
  }

  /** A capped loop from turn 0 over a fresh chunk buffer. */
  function CappedRun<T(!new)>(ctx: Context<T>, engine: Engine<T>, input: seq<T>, silence: T, mode: Buffers, limit: nat): (o: Outcome<T>)
    requires ShapePreserving(engine, ctx.geometry)
    ensures SameSetup(o.ctx, ctx)
    ensures o.chunks <= limit + 1
    ensures ctx.geometry.Size() > 0 ==> o.chunks == Min(|input| / ctx.geometry.Size() + 1, limit + 1)
    ensures |o.output| == o.chunks * ctx.geometry.Size()
    ensures o.ctx.mirrors.input.Open? == ctx.mirrors.input.Open? && o.ctx.mirrors.output == ctx.mirrors.output
  {
    var buf := ChunkBuffer(ctx.geometry, silence);
    var n := |buf|;
    assert n == ctx.geometry.Size();
    CappedChunks(ctx, engine, input, buf, mode, limit);
    LoopMirrorsOpen(ctx, engine, input, buf, mode, AtMost(limit), 0);
    var o := Loop(ctx, engine, input, buf, mode, AtMost(limit), 0);
    assert n > 0 ==> o.chunks == Min(|input| / n + 1, limit + 1);
    o
  }

  /** The driver over the plain initialiser, breaking after 10001 chunks. */
  function My2Agc2<T(!new)>(sampleRate: nat, channels: nat, engine: Engine<T>, input: seq<T>, silence: T): (o: Outcome<T>)
    requires ShapePreserving(engine, ChunkGeometry(sampleRate, channels))
    ensures ChunkGeometry(sampleRate, channels).Size() > 0 ==>
              o.chunks == Min(|input| / ChunkGeometry(sampleRate, channels).Size() + 1, ShortCap + 1)
    ensures o.chunks <= ShortCap + 1
    ensures |o.output| == o.chunks * ChunkGeometry(sampleRate, channels).Size()
  {
    CappedRun(InitContext(sampleRate, channels, 5.0, true), engine, input, silence, InPlace, ShortCap)
  }

  /** The driver over the class with default settings: the debug hook is
      toggled on before the loop and off after it; the loop breaks after
      10001 chunks. */
  function My3Agc2<T(!new)>(sampleRate: nat, channels: nat, engine: Engine<T>, input: seq<T>, silence: T): (o: Outcome<T>)
    requires ShapePreserving(engine, ChunkGeometry(sampleRate, channels))
    ensures o.ctx.mirrors == NoMirrors()
    ensures !o.ctx.splitBands
    ensures o.chunks <= ShortCap + 1
    ensures |o.output| == o.chunks * ChunkGeometry(sampleRate, channels).Size()
  {
    var ctx := DebugContext(DefaultContext<T>(sampleRate, channels), 1);
    var o := CappedRun(ctx, engine, input, silence, InPlace, ShortCap);
    Outcome(DebugContext(o.ctx, 1), o.output, o.chunks)
  }

  /** Running chunks never opens or closes a mirror. */
  lemma {:induction false} LoopMirrorsOpen<T(!new)>(ctx: Context<T>, engine: Engine<T>, rest: seq<T>, buf: seq<T>, mode: Buffers, cap: Cap, count: nat)
    requires |buf| == ctx.geometry.Size() && ShapePreserving(engine, ctx.geometry)
    requires cap.Unbounded? ==> |buf| > 0
    requires cap.AtMost? ==> count <= cap.limit
    ensures var o := Loop(ctx, engine, rest, buf, mode, cap, count);
            o.ctx.mirrors.input.Open? == ctx.mirrors.input.Open? &&
            o.ctx.mirrors.output == ctx.mirrors.output
    decreases (if cap.AtMost? then cap.limit - count else 0), |rest|
  {
    var loaded := Read(mode, rest, buf).1;
    var r := Run(ctx, engine, loaded);
    if |rest| < |buf| || (cap.AtMost? && count + 1 > cap.limit) {
      LoopStops(ctx, engine, rest, buf, mode, cap, count);
    } else {
      LoopMirrorsOpen(r.0, engine, rest[|buf|..], Carry(mode, loaded, r.1), mode, cap, count + 1);
      LoopContinues(ctx, engine, rest, buf, mode, cap, count);
    }
  }

  /** The reference example: 10 dB, adaptive on, the filter bank used above
      16 kHz, breaking after 30001 chunks. */
  function Agc2Example<T(!new)>(sampleRate: nat, channels: nat, engine: Engine<T>, input: seq<T>, silence: T): (o: Outcome<T>)
    requires ShapePreserving(engine, ChunkGeometry(sampleRate, channels))
    ensures o.ctx.splitBands <==> sampleRate > SampleRate16kHz
    ensures ChunkGeometry(sampleRate, channels).Size() > 0 ==>
              o.chunks == Min(|input| / ChunkGeometry(sampleRate, channels).Size() + 1, LongCap + 1)
    ensures o.chunks <= LongCap + 1
    ensures |o.output| == o.chunks * ChunkGeometry(sampleRate, channels).Size()
  {
    CappedRun(ExampleContext<T>(sampleRate, channels), engine, input, silence, ChannelBuffers, LongCap)
  }

  /** The last turn of a capped driver whose input ends before the cap:
      the output is the input's whole chunks plus one chunk, the engine's
      work on the final short read landing in the carried buffer. This
      covers the second and third drivers (in place) and the reference
      example (channel buffers). */
  lemma CappedLastTurn<T(!new)>(ctx: Context<T>, engine: Engine<T>, input: seq<T>, silence: T, mode: Buffers, limit: nat)
    requires ShapePreserving(engine, ctx.geometry) && ctx.geometry.Size() > 0
    requires |input| / ctx.geometry.Size() <= limit
    ensures var buf := ChunkBuffer(ctx.geometry, silence);
            var whole := WholeChunks(|input|, |buf|);
            var o := CappedRun(ctx, engine, input, silence, mode, limit);
            |o.output| == whole + |buf| &&
            exists c: Context<T> :: SameSetup(c, ctx) &&
              o.output[whole..] == Run(c, engine, Read(mode, input[whole..], Carried(mode, input, buf, o.output, whole)).1).1
  {
    var buf := ChunkBuffer(ctx.geometry, silence);
    CapUnreached(ctx, engine, input, buf, mode, limit, 0);
    LoopLastTurn(ctx, engine, input, buf, mode, 0, WholeChunks(|input|, |buf|));
  }

  /** With an engine that changes nothing, the reference example drops a
      final partial chunk: its last chunk repeats the last whole input chunk
      (the initial silence if there was none). */
  lemma ExampleDropsPartialChunk<T(!new)>(sampleRate: nat, channels: nat, input: seq<T>, silence: T)
    requires ChunkGeometry(sampleRate, channels).Size() > 0
    requires |input| / ChunkGeometry(sampleRate, channels).Size() <= LongCap
    ensures var buf := ChunkBuffer(ChunkGeometry(sampleRate, channels), silence);
            var whole := WholeChunks(|input|, |buf|);
            var o := Agc2Example(sampleRate, channels, Identity(), input, silence);
            |o.output| == whole + |buf| &&
            o.output[whole..] == (if whole == 0 then buf else input[whole - |buf| .. whole])
  {
    var ctx := ExampleContext<T>(sampleRate, channels);
    var buf := ChunkBuffer(ctx.geometry, silence);
    CapUnreached(ctx, Identity(), input, buf, ChannelBuffers, LongCap, 0);
    LoopRepeatsLastChunk(ctx, input, buf, ChannelBuffers, 0, WholeChunks(|input|, |buf|));
  }

  /** The debug hook of the third driver changes nothing the driver
      produces: same samples, same chunk count, same engine calls as the
      same loop with the mirrors left closed. */
  lemma My3MirrorsChangeNothing<T(!new)>(sampleRate: nat, channels: nat, engine: Engine<T>, input: seq<T>, silence: T)
    requires ShapePreserving(engine, ChunkGeometry(sampleRate, channels))
    ensures var plain := DefaultContext<T>(sampleRate, channels);
            var o := Loop(plain, engine, input, ChunkBuffer(plain.geometry, silence), InPlace, AtMost(ShortCap), 0);
            var d := My3Agc2(sampleRate, channels, engine, input, silence);
            d.output == o.output && d.chunks == o.chunks && d.ctx.log == o.ctx.log
  {
    var plain := DefaultContext<T>(sampleRate, channels);
    var ctx := DebugContext(plain, 1);
    assert ctx == plain.(mirrors := ctx.mirrors);
    LoopIgnoresMirrors(plain, engine, input, ChunkBuffer(plain.geometry, silence), InPlace, AtMost(ShortCap), 0, ctx.mirrors);
  }
}

=== FILE: layout.dfy ===
/** Interleaved and planar layouts of one chunk, over a generic sample type.
    An interleaved chunk lists frame 0 (channel 0, channel 1, ...), then
    frame 1, and so on; a planar chunk holds one sequence per channel. */
module Layout {
  import opened Chunking

  /** One sequence of samples per channel. */
  type Planar<T> = seq<seq<T>>

  /** `p` has `channels` channels of `frames` samples each. */
  predicate Shaped<T>(g: Geometry, p: Planar<T>) {
    |p| == g.channels && forall ch :: 0 <= ch < |p| ==> |p[ch]| == g.frames
  }

  /** A planar buffer of the chunk's shape filled with one value, as a
      freshly resized vector is. */
  function Filled<T>(g: Geometry, v: T): (p: Planar<T>)
    ensures Shaped(g, p)
    ensures forall ch, f :: 0 <= ch < g.channels && 0 <= f < g.frames ==> p[ch][f] == v
  {
    seq(g.channels, _ => seq(g.frames, _ => v))
  }

  /** The planar chunk read out of the interleaved buffer `pcm` starting at
      `at`: channel ch, frame f is taken from position at + f*channels + ch. */
  function Deinterleave<T>(g: Geometry, pcm: seq<T>, at: nat): (p: Planar<T>)
    requires at + g.Size() <= |pcm|
    ensures Shaped(g, p)
  {
    seq(g.channels, ch requires 0 <= ch < g.channels =>
      seq(g.frames, f requires 0 <= f < g.frames =>
        OffsetInChunk(g, f, ch);
        pcm[at + g.Offset(f, ch)]))
  }

  /** The samples of frame f, one per channel. */
  function Frame<T>(g: Geometry, p: Planar<T>, f: nat): (fr: seq<T>)
    requires Shaped(g, p) && f < g.frames
    ensures |fr| == g.channels
    ensures forall ch :: 0 <= ch < g.channels ==> fr[ch] == p[ch][f]
  {
    seq(g.channels, ch requires 0 <= ch < g.channels => p[ch][f])
  }

  /** The first n frames of `p`, concatenated in frame order. */
  function InterleaveFrames<T>(g: Geometry, p: Planar<T>, n: nat): (s: seq<T>)
    requires Shaped(g, p) && n <= g.frames
    ensures |s| == n * g.channels
    decreases n
  {
    if n == 0 then [] else InterleaveFrames(g, p, n - 1) + Frame(g, p, n - 1)
  }

  /** The whole planar chunk in interleaved (frame-major) order. */
  function Interleave<T>(g: Geometry, p: Planar<T>): (s: seq<T>)
    requires Shaped(g, p)
    ensures |s| == g.Size()
  {
    InterleaveFrames(g, p, g.frames)
  }

  /** The concatenation of frames puts (frame f, channel ch) at offset
      f*channels + ch, the index the source's copy loops use. */
  lemma {:induction false} InterleaveFramesIndex<T>(g: Geometry, p: Planar<T>, n: nat, f: nat, ch: nat)
    requires Shaped(g, p) && n <= g.frames
    requires f < n && ch < g.channels
    ensures g.Offset(f, ch) < n * g.channels
    ensures InterleaveFrames(g, p, n)[g.Offset(f, ch)] == p[ch][f]
    decreases n
  {
    var prefix := InterleaveFrames(g, p, n - 1);
    if f < n - 1 {
      InterleaveFramesIndex(g, p, n - 1, f, ch);
      assert InterleaveFrames(g, p, n) == prefix + Frame(g, p, n - 1);
    } else {
      assert |prefix| == f * g.channels;
    }
  }

  /** Interleave writes p[ch][f] to position f*channels + ch. */
  lemma InterleaveIndex<T>(g: Geometry, p: Planar<T>, f: nat, ch: nat)
    requires Shaped(g, p) && f < g.frames && ch < g.channels
    ensures g.Offset(f, ch) < g.Size()
    ensures Interleave(g, p)[g.Offset(f, ch)] == p[ch][f]
  {
    InterleaveFramesIndex(g, p, g.frames, f, ch);
  }

  lemma {:induction false} InterleaveFramesOfDeinterleave<T>(g: Geometry, pcm: seq<T>, at: nat, n: nat)
    requires at + g.Size() <= |pcm| && n <= g.frames
    ensures at + n * g.channels <= |pcm|
    ensures InterleaveFrames(g, Deinterleave(g, pcm, at), n) == pcm[at .. at + n * g.channels]
    decreases n
  {
    MulMonotone(n, g.frames, g.channels);
    if n > 0 {
      InterleaveFramesOfDeinterleave(g, pcm, at, n - 1);
      var p := Deinterleave(g, pcm, at);
      var base := at + (n - 1) * g.channels;
      assert at + n * g.channels == base + g.channels;
      assert Frame(g, p, n - 1) == pcm[base .. base + g.channels];
    }
  }

  /** Round trip: re-interleaving a deinterleaved chunk gives back exactly
      the samples it was read from. */
  lemma InterleaveOfDeinterleave<T>(g: Geometry, pcm: seq<T>, at: nat)
    requires at + g.Size() <= |pcm|
    ensures Interleave(g, Deinterleave(g, pcm, at)) == pcm[at .. at + g.Size()]
  {
    InterleaveFramesOfDeinterleave(g, pcm, at, g.frames);
  }

  /** Round trip: deinterleaving an interleaved planar chunk gives it back. */
  lemma DeinterleaveOfInterleave<T>(g: Geometry, p: Planar<T>)
    requires Shaped(g, p)
    ensures Deinterleave(g, Interleave(g, p), 0) == p
  {
    var q := Deinterleave(g, Interleave(g, p), 0);
    forall ch | 0 <= ch < g.channels
      ensures q[ch] == p[ch]
    {
      forall f | 0 <= f < g.frames
        ensures q[ch][f] == p[ch][f]
      {
        InterleaveIndex(g, p, f, ch);
      }
    }
  }

  /** Deinterleaving reads only the window: two buffers that hold the same
      samples there give the same planar chunk. */
  lemma DeinterleaveSameWindow<T>(g: Geometry, a: seq<T>, at: nat, b: seq<T>, bt: nat)
    requires at + g.Size() <= |a| && bt + g.Size() <= |b|
    requires a[at .. at + g.Size()] == b[bt .. bt + g.Size()]
    ensures Deinterleave(g, a, at) == Deinterleave(g, b, bt)
  {
    var da := Deinterleave(g, a, at);
    var db := Deinterleave(g, b, bt);
    forall ch | 0 <= ch < g.channels
      ensures da[ch] == db[ch]
    {
      forall f | 0 <= f < g.frames
        ensures da[ch][f] == db[ch][f]
      {
        OffsetInChunk(g, f, ch);
        assert a[at + g.Offset(f, ch)] == a[at .. at + g.Size()][g.Offset(f, ch)];
        assert b[bt + g.Offset(f, ch)] == b[bt .. bt + g.Size()][g.Offset(f, ch)];
      }
    }
  }

  /** Writing an interleaved chunk over the window at `at` and reading that
      window back gives the chunk. */
  lemma DeinterleaveOfSplice<T>(g: Geometry, a: seq<T>, p: Planar<T>, at: nat)
    requires Shaped(g, p) && at + g.Size() <= |a|
    ensures Deinterleave(g, a[..at] + Interleave(g, p) + a[at + g.Size()..], at) == p
  {
    var q := Interleave(g, p);
    var out := a[..at] + q + a[at + g.Size()..];
    assert out[at .. at + g.Size()] == q[0 .. g.Size()];
    DeinterleaveSameWindow(g, out, at, q, 0);
    DeinterleaveOfInterleave(g, p);
  }

  /** Writing a chunk over the window at `at` leaves every window that ends
      before `at` as it was. */
  lemma DeinterleaveBeforeSplice<T>(g: Geometry, a: seq<T>, q: seq<T>, at: nat, lo: nat)
    requires |q| == g.Size() && at + g.Size() <= |a| && lo + g.Size() <= at
    ensures Deinterleave(g, a[..at] + q + a[at + g.Size()..], lo) == Deinterleave(g, a, lo)
  {
    var out := a[..at] + q + a[at + g.Size()..];
    assert out[lo .. lo + g.Size()] == a[lo .. lo + g.Size()];
    DeinterleaveSameWindow(g, out, lo, a, lo);
  }

  /** The deinterleaving loop of the in-place processor: frames outermost,
      channels innermost, each sample copied from at + f*channels + ch into
      the scratch planar buffer, which it overwrites completely. */
  method DeinterleaveLoop<T>(g: Geometry, pcm: seq<T>, at: nat, scratch: Planar<T>) returns (p: Planar<T>)
    requires at + g.Size() <= |pcm|
    requires Shaped(g, scratch)
    ensures p == Deinterleave(g, pcm, at)
  {
    p := scratch;
    var f := 0;
    while f < g.frames
      invariant 0 <= f <= g.frames
      invariant Shaped(g, p)
      invariant forall ch, fp :: 0 <= ch < g.channels && 0 <= fp < f ==>
        at + g.Offset(fp, ch) < |pcm| && p[ch][fp] == pcm[at + g.Offset(fp, ch)]
    {
      var ch := 0;
      while ch < g.channels
        invariant 0 <= ch <= g.channels
        invariant Shaped(g, p)
        invariant forall c, fp :: 0 <= c < g.channels && 0 <= fp < f ==>
          at + g.Offset(fp, c) < |pcm| && p[c][fp] == pcm[at + g.Offset(fp, c)]
        invariant forall c :: 0 <= c < ch ==>
          at + g.Offset(f, c) < |pcm| && p[c][f] == pcm[at + g.Offset(f, c)]
      {
        OffsetInChunk(g, f, ch);
        p := p[ch := p[ch][f := pcm[at + g.Offset(f, ch)]]];
        ch := ch + 1;
      }
      f := f + 1;
    }
    var d := Deinterleave(g, pcm, at);
    forall ch | 0 <= ch < g.channels
      ensures p[ch] == d[ch]
    {
    }
  }

  /** The inner copy-back loop: writes frame f of `p` to the channels
      positions starting at `base`, leaving the rest of the buffer as it was. */
  method WriteFrame<T>(g: Geometry, pcm: seq<T>, base: nat, p: Planar<T>, f: nat) returns (out: seq<T>)
    requires Shaped(g, p) && f < g.frames
    requires base + g.channels <= |pcm|
    ensures out == pcm[..base] + Frame(g, p, f) + pcm[base + g.channels..]
  {
    out := pcm;
    var ch := 0;
    while ch < g.channels
      invariant 0 <= ch <= g.channels
      invariant |out| == |pcm|
      invariant out[..base] == pcm[..base]
      invariant forall c :: 0 <= c < ch ==> out[base + c] == p[c][f]
      invariant out[base + ch ..] == pcm[base + ch ..]
    {
      out := out[base + ch := p[ch][f]];
      ch := ch + 1;
    }
    assert out[base .. base + g.channels] == Frame(g, p, f);
    assert out == out[..base] + out[base .. base + g.channels] + out[base + g.channels..];
  }

  /** Writing the next piece `fr` right after `done` within a buffer that
      holds `done` at `at` extends what is done and keeps the rest. */
  lemma SpliceNext<T>(pcm: seq<T>, at: nat, done: seq<T>, fr: seq<T>)
    requires at + |done| + |fr| <= |pcm|
    ensures var cur := pcm[..at] + done + pcm[at + |done| ..];
            var base := at + |done|;
            |cur| == |pcm| &&
            cur[..base] + fr + cur[base + |fr| ..] == pcm[..at] + (done + fr) + pcm[base + |fr| ..]
  {
    var cur := pcm[..at] + done + pcm[at + |done| ..];
    var base := at + |done|;
    assert cur[..base] == pcm[..at] + done;
    assert cur[base + |fr| ..] == pcm[base + |fr| ..];
  }

  /** The interleaving loop of the in-place processor: writes p[ch][f] back
      to position at + f*channels + ch and leaves the rest of the buffer
      untouched. */
  method InterleaveLoop<T>(g: Geometry, pcm: seq<T>, at: nat, p: Planar<T>) returns (out: seq<T>)
    requires at + g.Size() <= |pcm|
    requires Shaped(g, p)
    ensures out == pcm[..at] + Interleave(g, p) + pcm[at + g.Size()..]
  {
    out := pcm;
    var f := 0;
    while f < g.frames
      invariant 0 <= f <= g.frames
      invariant at + f * g.channels <= at + g.Size()
      invariant out == pcm[..at] + InterleaveFrames(g, p, f) + pcm[at + f * g.channels ..]
    {
      MulMonotone(f + 1, g.frames, g.channels);
      var base := at + f * g.channels;
      assert (f + 1) * g.channels == f * g.channels + g.channels;
      SpliceNext(pcm, at, InterleaveFrames(g, p, f), Frame(g, p, f));
      out := WriteFrame(g, out, base, p, f);
      f := f + 1;
    }
  }
}

=== FILE: mirror.dfy ===
/** The debug mirror sinks of a context: an input mirror and an output
    mirror, each either closed or an open file that collects what is written
    to it. Toggling a closed sink creates a new, empty file; toggling an
    open sink closes (and finalises) it. */
module Mirror {

  datatype Sink<T> = Closed | Open(written: seq<T>)

  datatype Mirrors<T> = Mirrors(input: Sink<T>, output: Sink<T>)

  /** Both mirrors closed, as after construction. */
  function NoMirrors<T>(): (m: Mirrors<T>)
    ensures m.input.Closed? && m.output.Closed?
  {
    Mirrors(Closed, Closed)
  }

  /** Open a closed sink as a new empty file, or close an open one. */
  function Toggle<T>(s: Sink<T>): (r: Sink<T>)
    ensures r.Open? <==> s.Closed?
    ensures r.Open? ==> r.written == []
  {
    match s
    case Closed => Open([])
    case Open(_) => Closed
  }

  /** The diagnostic hook: identifier 1 toggles both mirrors; every other
      identifier leaves them as they are. */
  function Debug<T>(m: Mirrors<T>, id: int): (r: Mirrors<T>)
    ensures id == 1 ==> (r.input.Open? <==> m.input.Closed?)
    ensures id == 1 ==> (r.output.Open? <==> m.output.Closed?)
    ensures id == 1 && r.input.Open? ==> r.input.written == []
    ensures id == 1 && r.output.Open? ==> r.output.written == []
    ensures id != 1 ==> r == m
  {
    if id == 1 then Mirrors(Toggle(m.input), Toggle(m.output)) else m
  }

  /** Write samples to a sink: appended when open, dropped when closed. */
  function Append<T>(s: Sink<T>, samples: seq<T>): (r: Sink<T>)
    ensures r.Open? == s.Open?
    ensures r.Open? ==> r.written == s.written + samples
  {
    match s
    case Closed => Closed
    case Open(w) => Open(w + samples)
  }

  /** Identifier 1 issued n times in a row. */
  function DebugTimes<T>(m: Mirrors<T>, n: nat): Mirrors<T>
    decreases n
  {
    if n == 0 then m else Debug(DebugTimes(m, n - 1), 1)
  }

  /** After n toggles each mirror is open exactly when it started open and
      n is even, or started closed and n is odd. */
  lemma {:induction false} DebugTimesParity<T>(m: Mirrors<T>, n: nat)
    ensures DebugTimes(m, n).input.Open? <==> (m.input.Open? <==> n % 2 == 0)
    ensures DebugTimes(m, n).output.Open? <==> (m.output.Open? <==> n % 2 == 0)
    decreases n
  {
    if n > 0 {
      DebugTimesParity(m, n - 1);
    }
  }

  /** Two toggles restore the open/closed state of both mirrors, and restore
      the mirrors exactly when both start closed. A mirror that was open is
      re-created empty, so what it had collected is not carried over. */
  lemma DebugTwice<T>(m: Mirrors<T>)
    ensures Debug(Debug(m, 1), 1).input.Open? == m.input.Open?
    ensures Debug(Debug(m, 1), 1).output.Open? == m.output.Open?
    ensures m == NoMirrors() ==> Debug(Debug(m, 1), 1) == m
    ensures m.input.Open? ==> Debug(Debug(m, 1), 1).input.written == []
    ensures m.output.Open? ==> Debug(Debug(m, 1), 1).output.written == []
  {
  }
}

=== FILE: pipeline.dfy ===
/** The gain context around the opaque GainController2 engine: construction,
    reconfiguration, analog-level hints, and the per-chunk sequence
    copy-in, optional band split, engine, optional band merge, copy-out.

    The engine and the audio buffer's filter bank are not modelled; every
    call made to them is recorded in the context's event log. The engine is
    a function of that log and of the planar chunk it is handed, which is
    the most any deterministic stateful object can depend on. */
module Pipeline {
  import opened Chunking
  import opened Layout
  import opened Mirror

  datatype Option<T> = None | Some(value: T)

  /** A setting left at the library's default, or given explicitly. */
  datatype Setting = LibraryDefault | Given(value: real)

  /** The gain settings forwarded to the engine (the controller is always
      enabled). Values are passed through and never computed with. */
  datatype GainConfig = GainConfig(fixedGainDb: real, adaptiveEnabled: bool, vadAttack: Setting)

  /** Calls made to the engine and to its audio buffer. */
  datatype Event<T> =
    | Initialize(sampleRate: nat)
    | ApplyConfig(config: GainConfig)
    | Validate(config: GainConfig)
    | NotifyAnalogLevel(level: int)
    | CopyFrom(input: Planar<T>)
    | SplitIntoBands
    | Process
    | MergeBands
    | CopyTo

  /** The engine's effect on one chunk: given every call it has seen so far
      and the chunk in its buffer, the chunk it leaves there. */
  type Engine<!T> = (seq<Event<T>>, Planar<T>) -> Planar<T>

  /** The engine works in place on a buffer of fixed shape. */
  ghost predicate ShapePreserving<T(!new)>(engine: Engine<T>, g: Geometry) {
    forall log, p :: Shaped(g, p) ==> Shaped(g, engine(log, p))
  }

  /** The engine that leaves every chunk as it found it. */
  function Identity<T(!new)>(): (e: Engine<T>)
    ensures forall g: Geometry :: ShapePreserving(e, g)
  {
    (log: seq<Event<T>>, p: Planar<T>) => p
  }

  /** One gain context: the stream's rate, the chunk geometry, the band
      split flag fixed at construction, the engine's call log and the
      debug mirrors. */
  datatype Context<T> = Context(
    sampleRate: nat,
    geometry: Geometry,
    splitBands: bool,
    log: seq<Event<T>>,
    mirrors: Mirrors<T>)

  /** The two contexts differ at most in the engine log and the mirrors. */
  predicate SameSetup<T>(a: Context<T>, b: Context<T>) {
    a.sampleRate == b.sampleRate && a.geometry == b.geometry && a.splitBands == b.splitBands
  }

  // ---------------------------------------------------------------------
  // The order of engine calls

  /** Where the audio buffer is within one chunk's call sequence. */
  datatype BandState = Idle | Loaded | Split | SplitProcessed | Processed | Broken

  /** The order the buffer's calls must follow: copy-in, then optionally a
      split, one engine call, a merge only after a split and the engine call,
      then copy-out. Configuration calls happen only between chunks. */
  function Next<T>(s: BandState, e: Event<T>): BandState {
    match e
    case CopyFrom(_) => if s == Idle then Loaded else Broken
    case SplitIntoBands => if s == Loaded then Split else Broken
    case Process => if s == Loaded then Processed else if s == Split then SplitProcessed else Broken
    case MergeBands => if s == SplitProcessed then Processed else Broken
    case CopyTo => if s == Processed then Idle else Broken
    case _ => if s == Idle then Idle else Broken
  }

  function StateAfter<T>(s: BandState, es: seq<Event<T>>): BandState
    decreases |es|
  {
    if |es| == 0 then s else StateAfter(Next(s, es[0]), es[1..])
  }

  /** A log whose every chunk is complete and in order. */
  predicate WellOrdered<T>(es: seq<Event<T>>) {
    StateAfter(Idle, es) == Idle
  }

  function ProcessCount<T>(es: seq<Event<T>>): nat
    decreases |es|
  {
    if |es| == 0 then 0 else (if es[0].Process? then 1 else 0) + ProcessCount(es[1..])
  }

  /** The log uses the filter bank (a split or a merge). */
  predicate UsesBands<T>(es: seq<Event<T>>) {
    exists i :: 0 <= i < |es| && (es[i].SplitIntoBands? || es[i].MergeBands?)
  }

  lemma {:induction false} StateAfterAppend<T>(s: BandState, a: seq<Event<T>>, b: seq<Event<T>>)
    ensures StateAfter(s, a + b) == StateAfter(StateAfter(s, a), b)
    decreases |a|
  {
    if |a| > 0 {
      assert (a + b)[0] == a[0] && (a + b)[1..] == a[1..] + b;
      StateAfterAppend(Next(s, a[0]), a[1..], b);
    } else {
      assert a + b == b;
    }
  }

  lemma {:induction false} ProcessCountAppend<T>(a: seq<Event<T>>, b: seq<Event<T>>)
    ensures ProcessCount(a + b) == ProcessCount(a) + ProcessCount(b)
    decreases |a|
  {
    if |a| > 0 {
      assert (a + b)[0] == a[0] && (a + b)[1..] == a[1..] + b;
      ProcessCountAppend(a[1..], b);
    } else {
      assert a + b == b;
    }
  }

  lemma UsesBandsAppend<T>(a: seq<Event<T>>, b: seq<Event<T>>)
    ensures UsesBands(a + b) <==> UsesBands(a) || UsesBands(b)
  {
    if UsesBands(a + b) {
      var i :| 0 <= i < |a + b| && ((a + b)[i].SplitIntoBands? || (a + b)[i].MergeBands?);
      if i >= |a| {
        assert b[i - |a|] == (a + b)[i];
      }
    }
    if UsesBands(b) {
      var i :| 0 <= i < |b| && (b[i].SplitIntoBands? || b[i].MergeBands?);
      assert (a + b)[|a| + i] == b[i];
    }
    if UsesBands(a) {
      var i :| 0 <= i < |a| && (a[i].SplitIntoBands? || a[i].MergeBands?);
      assert (a + b)[i] == a[i];
    }
  }

  /** A band event when the chunk is split, nothing otherwise. */
  function WhenSplit<T>(split: bool, e: Event<T>): seq<Event<T>> {
    if split then [e] else []
  }

  /** The calls of one chunk up to the engine call. */
  function BeforeProcess<T>(split: bool, input: Planar<T>): seq<Event<T>> {
    [CopyFrom(input)] + WhenSplit(split, SplitIntoBands)
  }

  /** The calls one chunk makes. */
  function ChunkEvents<T>(split: bool, input: Planar<T>): seq<Event<T>> {
    BeforeProcess(split, input) + [Process] + WhenSplit(split, MergeBands) + [CopyTo]
  }

  /** One chunk is complete and in order, calls the engine exactly once, and
      uses the filter bank exactly when the split flag is set. */
  lemma ChunkEventsWellOrdered<T>(split: bool, input: Planar<T>)
    ensures WellOrdered(ChunkEvents(split, input))
    ensures ProcessCount(ChunkEvents(split, input)) == 1
    ensures UsesBands(ChunkEvents(split, input)) <==> split
    ensures ChunkEvents(split, input)[0] == CopyFrom(input)
  {
    var es := ChunkEvents(split, input);
    if split {
      assert es == [CopyFrom(input), SplitIntoBands, Process, MergeBands, CopyTo];
      assert es[1..] == [SplitIntoBands, Process, MergeBands, CopyTo];
      assert es[1..][1..] == [Process, MergeBands, CopyTo];
      assert es[1..][1..][1..] == [MergeBands, CopyTo];
      assert es[1..][1..][1..][1..] == [CopyTo];
      assert es[1..][1..][1..][1..][1..] == [];
      assert StateAfter(Idle, es) == StateAfter(Loaded, es[1..]) == StateAfter(Split, es[1..][1..]);
      assert StateAfter(Split, es[1..][1..]) == StateAfter(SplitProcessed, es[1..][1..][1..]);
      assert StateAfter(SplitProcessed, es[1..][1..][1..]) == StateAfter(Processed, es[1..][1..][1..][1..]);
      assert StateAfter(Processed, es[1..][1..][1..][1..]) == StateAfter(Idle, es[1..][1..][1..][1..][1..]) == Idle;
      assert ProcessCount(es) == ProcessCount(es[1..][1..]) == 1 + ProcessCount(es[1..][1..][1..]);
      assert ProcessCount(es[1..][1..][1..]) == ProcessCount(es[1..][1..][1..][1..][1..]) == 0;
    } else {
      assert es == [CopyFrom(input), Process, CopyTo];
      assert es[1..] == [Process, CopyTo];
      assert es[1..][1..] == [CopyTo];
      assert es[1..][1..][1..] == [];
      assert StateAfter(Processed, es[1..][1..]) == StateAfter(Idle, es[1..][1..][1..]) == Idle;
      assert StateAfter(Idle, es) == StateAfter(Loaded, es[1..]) == StateAfter(Processed, es[1..][1..]);
      assert ProcessCount(es) == ProcessCount(es[1..]) == 1 + ProcessCount(es[1..][1..]);
      assert ProcessCount(es[1..][1..]) == ProcessCount(es[1..][1..][1..]) == 0;
    }
  }

  // ---------------------------------------------------------------------
  // Construction

  /** What every constructor calls, in this order: Initialize, ApplyConfig,
      then Validate of the same configuration. */
  function SetupEvents<T>(sampleRate: nat, config: GainConfig): seq<Event<T>> {
    [Initialize(sampleRate), ApplyConfig(config), Validate(config)]
  }

  /** The configuration last forwarded to the engine, if any. */
  function CurrentConfig<T>(es: seq<Event<T>>): (c: Option<GainConfig>)
    ensures c.Some? ==> ApplyConfig(c.value) in es
    ensures c.None? ==> forall e :: e in es ==> !e.ApplyConfig?
    decreases |es|
  {
    if |es| == 0 then None
    else if es[|es| - 1].ApplyConfig? then Some(es[|es| - 1].config)
    else CurrentConfig(es[..|es| - 1])
  }

  function MakeContext<T>(sampleRate: nat, channels: nat, split: bool, config: GainConfig): (ctx: Context<T>)
    ensures ctx.sampleRate == sampleRate && ctx.splitBands == split
    ensures ctx.geometry == ChunkGeometry(sampleRate, channels)
    ensures ctx.mirrors == NoMirrors()
    ensures WellOrdered(ctx.log) && ProcessCount(ctx.log) == 0 && !UsesBands(ctx.log)
    ensures CurrentConfig(ctx.log) == Some(config)
    ensures |ctx.log| == 3 && ctx.log[0] == Initialize(sampleRate)
    ensures ctx.log[1] == ApplyConfig(config) && ctx.log[2] == Validate(config)
  {
    var log := SetupEvents(sampleRate, config);
    assert log[1..] == [ApplyConfig(config), Validate(config)];
    assert log[1..][1..] == [Validate(config)];
    assert log[1..][1..][1..] == [];
    assert StateAfter(Idle, log) == StateAfter(Idle, log[1..]) == StateAfter(Idle, log[1..][1..]);
    assert StateAfter(Idle, log[1..][1..]) == StateAfter(Idle, log[1..][1..][1..]) == Idle;
    assert ProcessCount(log) == ProcessCount(log[1..]) == ProcessCount(log[1..][1..]);
    assert ProcessCount(log[1..][1..]) == ProcessCount(log[1..][1..][1..]) == 0;
    assert log[..2][..1] == [Initialize(sampleRate)];
    Context(sampleRate, ChunkGeometry(sampleRate, channels), split, log, NoMirrors())
  }

  /** The class constructor: the split flag is the `subband` argument. */
  function NewContext<T>(sampleRate: nat, channels: nat, fixedGainDb: real, adaptive: bool,
                         vadAttack: real, subband: bool): (ctx: Context<T>)
    ensures ctx.splitBands == subband
    ensures ctx.geometry.channels == channels
    ensures ctx.geometry.frames * ChunksPerSecond <= sampleRate < (ctx.geometry.frames + 1) * ChunksPerSecond
    ensures CurrentConfig(ctx.log) == Some(GainConfig(fixedGainDb, adaptive, Given(vadAttack)))
    ensures ctx.mirrors == NoMirrors()
  {
    MakeContext(sampleRate, channels, subband, GainConfig(fixedGainDb, adaptive, Given(vadAttack)))
  }

  const DefaultGainDb: real := 3.0
  const DefaultAdaptive: bool := true
  const DefaultVadAttack: real := 1.0
  const DefaultSubband: bool := false

  /** The class constructor with every optional argument left at its
      default: 3 dB, adaptive on, attack probability 1, no band split. */
  function DefaultContext<T>(sampleRate: nat, channels: nat): (ctx: Context<T>)
    ensures !ctx.splitBands
    ensures CurrentConfig(ctx.log) == Some(GainConfig(3.0, true, Given(1.0)))
  {
    NewContext(sampleRate, channels, DefaultGainDb, DefaultAdaptive, DefaultVadAttack, DefaultSubband)
  }

  /** The plain initialiser: the split flag is forced off and the attack
      probability keeps the library default. */
  function InitContext<T>(sampleRate: nat, channels: nat, fixedGainDb: real, adaptive: bool): (ctx: Context<T>)
    ensures !ctx.splitBands
    ensures ctx.geometry == ChunkGeometry(sampleRate, channels)
    ensures CurrentConfig(ctx.log) == Some(GainConfig(fixedGainDb, adaptive, LibraryDefault))
  {
    MakeContext(sampleRate, channels, false, GainConfig(fixedGainDb, adaptive, LibraryDefault))
  }

  /** The reference example's setup: 10 dB, adaptive on, and the filter
      bank used exactly when the rate exceeds 16 kHz. */
  function ExampleContext<T>(sampleRate: nat, channels: nat): (ctx: Context<T>)
    ensures ctx.splitBands <==> sampleRate > SampleRate16kHz
    ensures ctx.geometry == ChunkGeometry(sampleRate, channels)
    ensures CurrentConfig(ctx.log) == Some(GainConfig(10.0, true, LibraryDefault))
  {
    MakeContext(sampleRate, channels, sampleRate > SampleRate16kHz, GainConfig(10.0, true, LibraryDefault))
  }

  /** The frame count a caller batches samples into (not multiplied by the
      channel count). For a context whose geometry was derived from its rate,
      it is the rate divided by 100, rounded down. */
  function GetChunkSize<T>(ctx: Context<T>): (frames: nat)
    ensures frames == ctx.geometry.frames
    ensures frames * ctx.geometry.channels == ctx.geometry.Size()
    ensures ctx.geometry == ChunkGeometry(ctx.sampleRate, ctx.geometry.channels) ==>
              frames * ChunksPerSecond <= ctx.sampleRate < (frames + 1) * ChunksPerSecond
  {
    ctx.geometry.frames
  }

  // ---------------------------------------------------------------------
  // Operations

  /** Runtime reconfiguration: the new settings are forwarded as they are;
      nothing validates them. */
  function Apply<T>(ctx: Context<T>, gainDb: real, adaptive: bool, vadAttack: real): (r: Context<T>)
    ensures SameSetup(r, ctx) && r.mirrors == ctx.mirrors
    ensures |r.log| == |ctx.log| + 1 && r.log[..|ctx.log|] == ctx.log
    ensures CurrentConfig(r.log) == Some(GainConfig(gainDb, adaptive, Given(vadAttack)))
    ensures r.log[|ctx.log|] == ApplyConfig(GainConfig(gainDb, adaptive, Given(vadAttack)))
  {
    var config := GainConfig(gainDb, adaptive, Given(vadAttack));
    var r := ctx.(log := ctx.log + [ApplyConfig(config)]);
    assert r.log[..|r.log| - 1] == ctx.log;
    r
  }

  /** An analog-level hint, forwarded to the engine. */
  function Notify<T>(ctx: Context<T>, level: int): (r: Context<T>)
    ensures SameSetup(r, ctx) && r.mirrors == ctx.mirrors
    ensures |r.log| == |ctx.log| + 1 && r.log[..|ctx.log|] == ctx.log
    ensures r.log[|ctx.log|] == NotifyAnalogLevel(level)
    ensures CurrentConfig(r.log) == CurrentConfig(ctx.log)
  {
    var r := ctx.(log := ctx.log + [NotifyAnalogLevel(level)]);
    assert r.log[..|r.log| - 1] == ctx.log;
    r
  }

  /** One planar chunk through copy-in, optional split, the engine, optional
      merge and copy-out. The chunk that comes back is what the engine left
      in the buffer, the engine having seen the calls logged before the chunk
      and the chunk's own calls before Process. */
  function ProcessPlanar<T(!new)>(ctx: Context<T>, engine: Engine<T>, input: Planar<T>): (r: (Context<T>, Planar<T>))
    requires Shaped(ctx.geometry, input) && ShapePreserving(engine, ctx.geometry)
    ensures SameSetup(r.0, ctx) && r.0.mirrors == ctx.mirrors
    ensures Shaped(ctx.geometry, r.1)
    ensures r.0.log == ctx.log + ChunkEvents(ctx.splitBands, input)
    ensures r.1 == engine(ctx.log + BeforeProcess(ctx.splitBands, input), input)
  {
    (ctx.(log := ctx.log + ChunkEvents(ctx.splitBands, input)), engine(ctx.log + BeforeProcess(ctx.splitBands, input), input))
  }

  /** The log the engine is shown is exactly the context's log after the
      chunk, cut just before the chunk's Process call. */
  lemma EngineSeesLogBefore<T(!new)>(ctx: Context<T>, engine: Engine<T>, input: Planar<T>)
    requires Shaped(ctx.geometry, input) && ShapePreserving(engine, ctx.geometry)
    ensures var r := ProcessPlanar(ctx, engine, input);
            var n := |ctx.log| + |BeforeProcess(ctx.splitBands, input)|;
            n < |r.0.log| && r.0.log[n] == Process && r.1 == engine(r.0.log[..n], input)
  {
    var before := ctx.log + BeforeProcess(ctx.splitBands, input);
    var r := ProcessPlanar(ctx, engine, input);
    assert r.0.log == before + ([Process] + WhenSplit(ctx.splitBands, MergeBands) + [CopyTo]);
    assert r.0.log[..|before|] == before;
  }

  /** The interleaved entry point of the class: the input mirror, when open,
      receives the chunk as it arrives; the chunk is deinterleaved, processed
      and interleaved back into the same positions. */
  function Run<T(!new)>(ctx: Context<T>, engine: Engine<T>, chunk: seq<T>): (r: (Context<T>, seq<T>))
    requires |chunk| == ctx.geometry.Size() && ShapePreserving(engine, ctx.geometry)
    ensures SameSetup(r.0, ctx)
    ensures |r.1| == |chunk|
    ensures r.0.mirrors == Mirrors(Append(ctx.mirrors.input, chunk), ctx.mirrors.output)
    ensures r.0.log == ctx.log + ChunkEvents(ctx.splitBands, Deinterleave(ctx.geometry, chunk, 0))
    ensures var input := Deinterleave(ctx.geometry, chunk, 0);
            Deinterleave(ctx.geometry, r.1, 0) == engine(ctx.log + BeforeProcess(ctx.splitBands, input), input)
  {
    var g := ctx.geometry;
    var mirrored := ctx.(mirrors := ctx.mirrors.(input := Append(ctx.mirrors.input, chunk)));
    var (c1, q) := ProcessPlanar(mirrored, engine, Deinterleave(g, chunk, 0));
    DeinterleaveOfInterleave(g, q);
    (c1, Interleave(g, q))
  }

  /** Run's output is the engine's chunk written back in interleaved order:
      channel ch of frame f of the engine's result sits at f*channels + ch. */
  lemma RunWritesEngineResult<T(!new)>(ctx: Context<T>, engine: Engine<T>, chunk: seq<T>, f: nat, ch: nat)
    requires |chunk| == ctx.geometry.Size() && ShapePreserving(engine, ctx.geometry)
    requires f < ctx.geometry.frames && ch < ctx.geometry.channels
    ensures ctx.geometry.Offset(f, ch) < |chunk|
    ensures var input := Deinterleave(ctx.geometry, chunk, 0);
            var q := engine(ctx.log + BeforeProcess(ctx.splitBands, input), input);
            Run(ctx, engine, chunk).1[ctx.geometry.Offset(f, ch)] == q[ch][f]
  {
    var g := ctx.geometry;
    var r := Run(ctx, engine, chunk);
    OffsetInChunk(g, f, ch);
    assert Deinterleave(g, r.1, 0)[ch][f] == r.1[g.Offset(f, ch)];
  }

  /** With an engine that changes nothing, a chunk comes out of the whole
      chunk path exactly as it went in. */
  lemma RunIdentity<T(!new)>(ctx: Context<T>, chunk: seq<T>)
    requires |chunk| == ctx.geometry.Size()
    ensures Run(ctx, Identity(), chunk).1 == chunk
  {
    InterleaveOfDeinterleave(ctx.geometry, chunk, 0);
  }

  /** The debug mirrors never change the samples or the engine's calls. */
  lemma RunIgnoresMirrors<T(!new)>(ctx: Context<T>, engine: Engine<T>, chunk: seq<T>, m: Mirrors<T>)
    requires |chunk| == ctx.geometry.Size() && ShapePreserving(engine, ctx.geometry)
    ensures Run(ctx.(mirrors := m), engine, chunk).1 == Run(ctx, engine, chunk).1
    ensures Run(ctx.(mirrors := m), engine, chunk).0.log == Run(ctx, engine, chunk).0.log
  {
  }

  /** Write processed samples to the output mirror, when open. */
  function WriteOutSamples<T>(ctx: Context<T>, samples: seq<T>): (r: Context<T>)
    ensures r.log == ctx.log && SameSetup(r, ctx)
    ensures r.mirrors.input == ctx.mirrors.input
    ensures r.mirrors.output.Open? == ctx.mirrors.output.Open?
    ensures r.mirrors.output.Open? ==> r.mirrors.output.written == ctx.mirrors.output.written + samples
  {
    ctx.(mirrors := ctx.mirrors.(output := Append(ctx.mirrors.output, samples)))
  }

  /** The diagnostic hook of a context. */
  function DebugContext<T>(ctx: Context<T>, id: int): (r: Context<T>)
    ensures r.log == ctx.log && SameSetup(r, ctx)
    ensures id != 1 ==> r == ctx
    ensures id == 1 ==> (r.mirrors.input.Open? <==> ctx.mirrors.input.Closed?)
    ensures id == 1 ==> (r.mirrors.output.Open? <==> ctx.mirrors.output.Closed?)
  {
    ctx.(mirrors := Debug(ctx.mirrors, id))
  }

  // ---------------------------------------------------------------------
  // The whole lifetime of a context

  /** A call a host makes on a constructed context. */
  datatype Op<T> =
    | ApplyOp(gainDb: real, adaptive: bool, vadAttack: real)
    | NotifyOp(level: int)
    | RunOp(chunk: seq<T>)
    | WriteOutOp(samples: seq<T>)
    | DebugOp(id: int)

  /** Every chunk handed to Run has the chunk's length. */
  predicate ChunksFit<T>(g: Geometry, ops: seq<Op<T>>) {
    forall i :: 0 <= i < |ops| && ops[i].RunOp? ==> |ops[i].chunk| == g.Size()
  }

  function RunCount<T>(ops: seq<Op<T>>): nat
    decreases |ops|
  {
    if |ops| == 0 then 0 else (if ops[0].RunOp? then 1 else 0) + RunCount(ops[1..])
  }

  function Perform<T(!new)>(ctx: Context<T>, engine: Engine<T>, op: Op<T>): (r: Context<T>)
    requires ShapePreserving(engine, ctx.geometry)
    requires op.RunOp? ==> |op.chunk| == ctx.geometry.Size()
    ensures SameSetup(r, ctx)
  {
    match op
    case ApplyOp(gainDb, adaptive, vadAttack) => Apply(ctx, gainDb, adaptive, vadAttack)
    case NotifyOp(level) => Notify(ctx, level)
    case RunOp(chunk) => Run(ctx, engine, chunk).0
    case WriteOutOp(samples) => WriteOutSamples(ctx, samples)
    case DebugOp(id) => DebugContext(ctx, id)
  }

  function Replay<T(!new)>(ctx: Context<T>, engine: Engine<T>, ops: seq<Op<T>>): (r: Context<T>)
    requires ShapePreserving(engine, ctx.geometry) && ChunksFit(ctx.geometry, ops)
    ensures SameSetup(r, ctx)
    decreases |ops|
  {
    if |ops| == 0 then ctx else Replay(Perform(ctx, engine, ops[0]), engine, ops[1..])
  }

  /** Each host call keeps the log well ordered, adds one engine call per
      chunk, and uses the filter bank exactly when it runs a chunk of a
      context whose split flag is set. */
  lemma PerformInvariant<T(!new)>(ctx: Context<T>, engine: Engine<T>, op: Op<T>)
    requires ShapePreserving(engine, ctx.geometry)
    requires op.RunOp? ==> |op.chunk| == ctx.geometry.Size()
    requires WellOrdered(ctx.log)
    ensures WellOrdered(Perform(ctx, engine, op).log)
    ensures ProcessCount(Perform(ctx, engine, op).log) == ProcessCount(ctx.log) + (if op.RunOp? then 1 else 0)
    ensures UsesBands(Perform(ctx, engine, op).log) <==> UsesBands(ctx.log) || (op.RunOp? && ctx.splitBands)
  {
    var r := Perform(ctx, engine, op);
    var added: seq<Event<T>>;
    match op {
      case ApplyOp(gainDb, adaptive, vadAttack) =>
        added := [ApplyConfig(GainConfig(gainDb, adaptive, Given(vadAttack)))];
      case NotifyOp(level) =>
        added := [NotifyAnalogLevel(level)];
      case RunOp(chunk) =>
        added := ChunkEvents(ctx.splitBands, Deinterleave(ctx.geometry, chunk, 0));
        ChunkEventsWellOrdered(ctx.splitBands, Deinterleave(ctx.geometry, chunk, 0));
      case WriteOutOp(_) =>
        added := [];
      case DebugOp(_) =>
        added := [];
    }
    assert r.log == ctx.log + added;
    StateAfterAppend(Idle, ctx.log, added);
    ProcessCountAppend(ctx.log, added);
    UsesBandsAppend(ctx.log, added);
  }

  /** Over the whole lifetime of a context: the rate, geometry and split flag
      never change after construction; the log stays well ordered; the
      engine is called once per chunk; and the filter bank is used exactly
      when the split flag is set and at least one chunk has run. */
  lemma {:induction false} ReplayInvariant<T(!new)>(ctx: Context<T>, engine: Engine<T>, ops: seq<Op<T>>)
    requires ShapePreserving(engine, ctx.geometry) && ChunksFit(ctx.geometry, ops)
    requires WellOrdered(ctx.log)
    ensures SameSetup(Replay(ctx, engine, ops), ctx)
    ensures WellOrdered(Replay(ctx, engine, ops).log)
    ensures ProcessCount(Replay(ctx, engine, ops).log) == ProcessCount(ctx.log) + RunCount(ops)
    ensures UsesBands(Replay(ctx, engine, ops).log) <==> UsesBands(ctx.log) || (ctx.splitBands && RunCount(ops) > 0)
    decreases |ops|
  {
    if ops != [] {
      PerformInvariant(ctx, engine, ops[0]);
      var next := Perform(ctx, engine, ops[0]);
      assert ChunksFit(next.geometry, ops[1..]) by {
        forall i | 0 <= i < |ops[1..]| && ops[1..][i].RunOp?
          ensures |ops[1..][i].chunk| == next.geometry.Size()
        {
          assert ops[1..][i] == ops[i + 1];
        }
      }
      ReplayInvariant(next, engine, ops[1..]);
    }
  }

  /** The band split decision is made once, at construction: for a context
      from the class constructor, the plain initialiser or the reference
      example, the filter bank is used over any lifetime exactly when that
      constructor set the flag and a chunk has run. */
  lemma SplitDecidedAtConstruction<T(!new)>(sampleRate: nat, channels: nat, engine: Engine<T>, ops: seq<Op<T>>,
                                      fixedGainDb: real, adaptive: bool, vadAttack: real, subband: bool)
    requires ShapePreserving(engine, ChunkGeometry(sampleRate, channels))
    requires ChunksFit(ChunkGeometry(sampleRate, channels), ops)
    ensures UsesBands(Replay(NewContext(sampleRate, channels, fixedGainDb, adaptive, vadAttack, subband), engine, ops).log)
            <==> subband && RunCount(ops) > 0
    ensures !UsesBands(Replay(InitContext(sampleRate, channels, fixedGainDb, adaptive), engine, ops).log)
    ensures UsesBands(Replay(ExampleContext(sampleRate, channels), engine, ops).log)
            <==> sampleRate > SampleRate16kHz && RunCount(ops) > 0
  {
    ReplayInvariant(NewContext(sampleRate, channels, fixedGainDb, adaptive, vadAttack, subband), engine, ops);
    ReplayInvariant(InitContext<T>(sampleRate, channels, fixedGainDb, adaptive), engine, ops);
    ReplayInvariant(ExampleContext<T>(sampleRate, channels), engine, ops);
  }

  /** The chunk size a host asks for is fixed at construction and stays the
      rate divided by 100 over any lifetime of the context; times the channel
      count it is the length every Run call expects. */
  lemma ChunkSizeOverLifetime<T(!new)>(sampleRate: nat, channels: nat, split: bool, config: GainConfig,
                                       engine: Engine<T>, ops: seq<Op<T>>)
    requires ShapePreserving(engine, ChunkGeometry(sampleRate, channels))
    requires ChunksFit(ChunkGeometry(sampleRate, channels), ops)
    ensures var ctx := Replay(MakeContext(sampleRate, channels, split, config), engine, ops);
            var frames := GetChunkSize(ctx);
            frames * ChunksPerSecond <= sampleRate < (frames + 1) * ChunksPerSecond &&
            frames * channels == ctx.geometry.Size()
  {
  }
}
